=== FILE: README.md ===
# A verified model of vetr's attribute comparator, UTF-8 truncation and tracking hash

This project models three sequential pieces of the C core of the R package
vetr (brodieG/validate) and proves properties of each.

- **Attribute comparison** (`src/attr.c`). vetr's `alike` compares an object
  (`current`) with a template (`target`). Part of that is comparing their
  attribute lists, and this project models that part.
  - `class` uses a right-aligned suffix match.
  - In `dim`, zeros are wildcards, and implicit classes (matrix, array) are
    detected.
  - In `names`, `row.names` and `levels`, empty strings are wildcards.
  - `dimnames` is compared in three steps: its own attributes, then its
    names, then each axis.
  - In `tsp`, zero slots are wildcards.
  - Every other attribute goes through the generic rule.
  - The eight-slot arbitration scans both lists and reports the
    lowest-numbered failing slot. The slots are 0 class, 1 tsp, 2 dim,
    3 names, 4 row.names, 5 dimnames, 6 other, 7 missing or extra
    attributes.
  - A failure carries a "wrap": the R call that leads to the bad part of the
    object, such as `names(x)[3]`. The model keeps it as a list of frames,
    each a call with one hole, outermost first (`Wraps`).
- **UTF-8 stepping and truncation** (`src/strsub.c`).
  - `utf8_offset` steps over one character: a well-formed sequence, or the
    maximal subpart of an ill-formed one. This follows Table 3-7 of
    section 3.9 of The Unicode Standard, version 10.0.
  - `CSR_nchar_u` counts characters.
  - `CSR_strsub` truncates a string to a number of characters. It can end
    the result with `..`.
  - Strings are byte sequences up to, not including, the NUL terminator
    (`Utf8`, `StrSub`).
- **Tracking hash** (`src/trackinghash.c`). This is a key/value table plus an
  append-only log of the keys added. `reset(k)` rolls the table back to the
  first `k` logged keys.
  - The hash table is a `map`.
  - The functional model is in `TrackingHash`.
  - A class with an array log in `TrackingTable` is proved to follow it.
    Those contracts use `old` and `fresh`.

The model uses these conventions:
- An R `error()` ("Internal Error") becomes an `Err` of the `Result` type in
  `Outcomes`.
- The R routines `attr.c` calls but does not define are fields of the
  `Host` record:
  - the recursive `alike` (`ALIKEC_alike_internal`);
  - `ALIKEC_class`;
  - `ALIKEC_mode`;
  - `R_compute_identical`.

  Every contract holds for every choice of them.
- `isVectorAtomic` is defined from the value's type, as R defines it.
- Messages are a datatype with one constructor per phrase that `attr.c`
  composes. The numbers in them stay numbers.
- Several `attr.c` members exist in two versions, chosen by a `Policy`
  value. `AsWritten` is the code as it stands. `Corrected` has the defects
  under "## Findings" repaired.
- The same applies to `TrackingHash`: `AddAsWritten` versus `Add`.

## Model

| member | source | states |
|---|---|---|
| Utf8.OffsetOf | src/strsub.c:53-109 | A step is always 1 to 4 bytes. An ASCII byte, a byte 80..C1 and a byte F5..FF each step 1. Every byte after the first that is counted is a continuation byte following a lead of the right size. |
| Utf8.Offset | src/strsub.c:53-109 | A step from inside the string never runs past its end, so it never crosses the NUL terminator. |
| Utf8.SingleByteCase | src/strsub.c:56-58 | A byte that cannot lead a multi-byte sequence steps 1, and 1 is also its maximal subpart under Table 3-7. |
| Utf8.TwoByteLeadCase | src/strsub.c:59-61 | For leads C2..DF the step equals the maximal subpart under Table 3-7. |
| Utf8.ThreeByteLeadCase | src/strsub.c:62-79 | For leads E0..EF, including the E0 and ED second-byte exceptions, the step equals the maximal subpart. |
| Utf8.FourByteLeadCase | src/strsub.c:80-106 | For leads F0..F4, including the F0 and F4 second-byte exceptions, the step equals the maximal subpart. |
| Utf8.OffsetOfIsMaximalSubpart | src/strsub.c:53-109 | For every four bytes, the step equals the length of the longest prefix that Table 3-7 allows. |
| Utf8.OffsetIsMaximalSubpart | src/strsub.c:53-109 | At every position of a string, the step equals the maximal subpart there. |
| Utf8.WellFormedOffset | src/strsub.c:40-109 | At the start of a well-formed sequence of n bytes, the step is n. |
| Utf8.OffsetOfStable | src/strsub.c:53-109 | The step depends only on the bytes it counts, plus the one byte after them when that byte is ASCII. |
| Utf8.OffsetStopsAtTerminator | src/strsub.c:53-109 | Bytes after a NUL terminator never change a step taken before it. |
| Utf8.ValidPrefixBytes | src/strsub.c:40-52 | A prefix is valid iff its lead is a Table 3-7 lead and each later byte lies in that lead's range for its position. |
| StrSub.Count | src/strsub.c:301-313 | The number of characters from a position is at most the number of bytes left, and at least 1 when any byte is left. |
| StrSub.Chars | src/strsub.c:301-313 | The steps cut the string into Count pieces of 1 to 4 bytes whose concatenation is the string. |
| StrSub.NChar | src/strsub.c:281-317 | The loop counts steps until the terminator, giving Count, which is never more than the byte length. |
| StrSub.CountAscii | src/strsub.c:301-313 | For an all-ASCII string the character count is the byte length. |
| StrSub.CountAfterAdvance | src/strsub.c:197-225 | After n steps, n fewer characters remain. |
| StrSub.AdvanceBeforeEnd | src/strsub.c:197-200 | After n steps the terminator has not been reached iff the string has more than n characters. |
| StrSub.CountOnAgreeingPrefix | src/strsub.c:197-225 | Counting n characters looks only at the bytes they cover, as long as the next byte is ASCII. |
| StrSub.Truncate | src/strsub.c:154-174 | Truncation is an error iff `chars < 1`, or `chars < 3` with a mark. Without a mark the result is a prefix of the string. |
| StrSub.TruncateCharCount | src/strsub.c:197-267 | The result has min(Count, chars) characters. |
| StrSub.StrSub | src/strsub.c:145-276 | A string of at most `chars` characters comes back unchanged. Otherwise, without a mark, the result is the byte prefix holding `chars` characters. With a mark, it is `chars - 2` characters followed by `..`, and never longer than the `chars`-character prefix. |
| StrSub.MarkFits | src/strsub.c:239-252 | The `chars - 2` prefix plus the two pad bytes fits in the buffer sized for `chars` characters. |
| TrackingHash.Create | src/trackinghash.c:13-25 | A new hash is valid and empty, with log index 0 and capacity n. |
| TrackingHash.NewCapacity | src/trackinghash.c:82-86 | Growth doubles a positive capacity and always increases it, including from 0. |
| TrackingHash.Add | src/trackinghash.c:60-128 | The corrected growth rule; `AddAsWritten` is the code as written. The table becomes `table[key := value]`. The code is 0 iff the key was already present. It fails iff the key is new and either the log index is past the capacity or the new capacity exceeds the largest LP64 long, 2^63 - 1. The new capacity is the doubled one, or 1 for an empty log. |
| TrackingHash.AddExisting | src/trackinghash.c:66-77 | Adding a present key returns 0 and leaves the log, its index and its capacity unchanged. |
| TrackingHash.AddFresh | src/trackinghash.c:77-124 | Adding a new key with room left returns 1 and appends the key at `contents[idx]`, incrementing `idx`. |
| TrackingHash.AddGrows | src/trackinghash.c:82-124 | Adding a new key to a full log doubles the capacity, returns the new capacity and appends the key. |
| TrackingHash.AddNeverCorrupted | src/trackinghash.c:112-117 | From a valid hash, the corrupted-index error cannot happen; only a too-large growth can fail. |
| TrackingHash.AddValid | src/trackinghash.c:60-128 | Adding preserves the invariant and adds exactly the key to the key set. The invariant: the keys are the distinct entries `contents[0..idx)`, and `idx <= idx_max`. |
| TrackingHash.Unlog | src/trackinghash.c:39-49 | Deleting the log entries from `idx` down to `k` removes exactly the keys `contents[k..idx)`. It fails only when one of those keys is missing from the table. |
| TrackingHash.UnlogSucceeds | src/trackinghash.c:39-49 | When those entries are distinct keys of the table, no deletion fails. |
| TrackingHash.Reset | src/trackinghash.c:36-51 | Reset sets `idx` to `k`, keeps the log and its capacity, and removes exactly the keys logged at `k..idx)`. Nothing is removed when `k >= idx`. It reads past the log, an error, exactly when `k < idx` and `idx` is beyond the array. |
| TrackingHash.ResetPastEndThenReset | src/trackinghash.c:36-51 | A reset to a position past the capacity is accepted and leaves `idx` beyond the array. A later reset to the old position then reads past the end of the log. |
| TrackingHash.ResetValid | src/trackinghash.c:36-51 | On a valid hash, reset succeeds. The result is valid iff `k <= idx`, and its keys are then the first `k` logged keys. |
| TrackingHash.ResetWithin | src/trackinghash.c:27-51 | Resetting to `k <= idx` keeps the invariant and leaves the first `k` logged keys. |
| TrackingHash.ResetBeyond | src/trackinghash.c:39-50 | Resetting to `k > idx` overwrites `idx` unconditionally and breaks the invariant. |
| TrackingHash.ResetAll | src/trackinghash.c:27-51 | `reset(0)` empties the table. |
| TrackingHash.AddAll | src/trackinghash.c:155-176 | A run of additions keeps the invariant and gives one code per key. |
| TrackingHash.Rollback | src/trackinghash.c:36-128 | Resetting to the log index before a run of additions restores the table's key set. |
| TrackingHash.AddAllFresh | src/trackinghash.c:77-124 | Distinct new keys that fit the capacity each return 1 and advance `idx` by one. |
| TrackingHash.AddAllKeys | src/trackinghash.c:60-128 | After a run of additions, the key set is the old one plus the added keys. |
| TrackingHash.AddAsWritten | src/trackinghash.c:60-128 | The code as written updates the table in the same way. A new key on a full log is rejected as too large exactly when the capacity exceeds 64, because its largest long is 128. |
| TrackingHash.AddAsWrittenAgrees | src/trackinghash.c:82-124 | With room left, or a positive capacity of at most 64, the code as written and the corrected one agree. |
| TrackingHash.AddAsWrittenStopsAt128 | src/trackinghash.c:86-97 | A full log of 128 entries cannot grow as written, while the corrected version grows it to 256. |
| TrackingHash.FullLogReachable | src/trackinghash.c:155-176 | 128 distinct keys added to `create(128)` produce that full log. |
| TrackingHash.AddAsWrittenFromEmpty | src/trackinghash.c:82-124 | As written, `create(0)` followed by an add writes past the log. The corrected version returns 1. |
| RValues.TypeOf | src/attr.c:866-880 | Each kind of value has its own SEXP type, and NULL is NILSXP. |
| RValues.Attrib | src/attr.c:929-933 | The attribute pairlist of a value is NULL iff it has no attributes, and it otherwise lists them. |
| RValues.Find | src/attr.c:1013-1026 | Gives the first attribute with the tag, or -1 iff there is none. |
| RValues.FindLast | src/attr.c:1013-1026 | Gives the last attribute with the tag, or -1 iff there is none. The loop keeps overwriting its match. |
| Wraps.RenderNest | src/attr.c:108-129 | Nesting a frame fills that frame first, then the wrap around it. |
| Wraps.RenderWrapAround | src/attr.c:108-129 | Rendering after `wrap_around(w, fn)` renders `w` with `fn(x)` at the hole. |
| Wraps.RenderOutermost | src/attr.c:108-129 | The outermost frame is filled last. |
| Wraps.PlugAttrWrap | src/attr.c:78-99 | The wrap for a tag is `tag(x)` for the seven tags R has accessors for, and `attr(x, "tag")` otherwise. |
| AlikeResults.Fail | src/attr.c:150-164 | A failure has the given message and wrap, no data-frame flag and level 0. |
| AttrRules.AlikeAttr | src/attr.c:150-164 | Succeeds iff the recursive `alike` succeeds. A failure says "be alike" and is wrapped in the attribute accessor. |
| AttrRules.CompareClass | src/attr.c:176-261 | With character classes, compares the last min(\|T\|,\|C\|) classes of current with the first min(\|T\|,\|C\|) of target. It succeeds iff they all match, target has no extra classes and the attribute lists are alike. The df flag is set iff "data.frame" is among the scanned target classes. Other classes defer to the generic `alike`. |
| AttrRules.FirstClassMismatch | src/attr.c:195-212 | The first position in the aligned overlap whose classes differ. All earlier positions match. |
| AttrRules.ClassMismatchReported | src/attr.c:195-238 | A mismatch reports the target class and current's class at that position. With more than one current class it is wrapped as `class(x)[p]`, where p is the 1-based position in current. |
| AttrRules.RenderClassWrap | src/attr.c:216-222 | The class wrap renders as `class(x)[p]`. |
| AttrRules.ClassInheritReported | src/attr.c:243-249 | When every current class matches and target has more, the comparison fails asking to inherit from `target[\|C\|]`. |
| AttrRules.FirstDimMismatch | src/attr.c:362-367 | The first nonzero target dim that differs from current. All earlier ones are zero or equal. |
| AttrRules.CompareDims | src/attr.c:280-401 | An implicit-class clash gives level 1. Otherwise: a NULL current dim fails with "have a dim attribute"; differing dim counts fail with a count message; equal counts succeed iff every nonzero target dim matches and the `alike` check passes. |
| AttrRules.DimMismatchReported | src/attr.c:362-398 | The first nonzero unequal dim is reported as rows or columns for two dims, or as dimension i+1 otherwise. |
| AttrRules.FirstNameMismatch | src/attr.c:491-497 | The first index whose names disagree. An empty target name matches anything unless strict. |
| AttrRules.CompareCharAttrs | src/attr.c:450-521 | A failed `alike` is returned as is. Differing types, or a nonempty target of another length or kind, is an internal error. A zero-length target matches. Integers must be identical. Strings match iff identical or every name matches. |
| AttrRules.NameMismatchReported | src/attr.c:490-511 | The first mismatched name is reported quoted, wrapped as `x[i+1]`. |
| AttrRules.CompareLevels | src/attr.c:826-843 | Character levels follow the char-attribute rule. Anything else follows the generic `alike`. |
| AttrRules.LevelsMismatchReported | src/attr.c:829-840 | A levels failure is the char-attribute failure wrapped in `levels(x)`. |
| AttrRules.FirstTsMismatch | src/attr.c:787-788 | The first tsp slot with a nonzero target unequal to current. |
| AttrRules.CompareTs | src/attr.c:776-811 | For two real vectors of length 3, succeeds iff no slot has a nonzero unequal target. A failure reports the first such slot's values. Other shapes defer to the generic `alike`. |
| AttrRules.TsAgree | src/attr.c:781-809 | tsp success iff every slot is a zero target or equal. |
| AttrRules.RenderTspElement | src/attr.c:797-803 | The tsp failure is located at `tsp(x)[i+1]`. |
| AttrRules.CompareSimple | src/attr.c:862-913 | Exempt cases pass. These are: mode 0 with an empty target; both NULL; or a nonzero mode with an external pointer, weak reference, bytecode or environment target. Otherwise it succeeds iff neither side is NULL, type and length agree, and `alike` passes. A NULL side fails with "have" or "not have attribute". |
| AttrRules.SimpleLengthReported | src/attr.c:896-905 | A length mismatch is located at `length(tag(x))`. |
| AttrRules.SimpleTypeReported | src/attr.c:891-895 | A type mismatch is located at the attribute accessor. |
| Dimnames.PlugAttrFrame | src/attr.c:542-550 | As written, the missing-attribute wrap renders as `attr(dimnames(NULL), x)`. Corrected, it renders as `attr(dimnames(x), "tag")`. |
| Dimnames.CompareAttrsAgree | src/attr.c:621-660 | The corrected loop over dimnames attributes succeeds iff every non-names attribute has an alike partner. |
| Dimnames.MissingAttrStops | src/attr.c:650-659 | The first missing attribute after agreeing ones ends the loop with "not be missing". |
| Dimnames.MissingAttrReported | src/attr.c:650-659 | That failure is located at `attr(dimnames(x), "tag")`. |
| Dimnames.CompareNames | src/attr.c:667-699 | The names of dimnames succeed iff they agree under the char-attribute rule. A failure keeps that rule's message. |
| Dimnames.NamesMismatchReported | src/attr.c:673-697 | A names failure is wrapped in `names(dimnames(x))`. |
| Dimnames.PlugAxisFrame | src/attr.c:718-739 | An axis failure is located at `row.names(x)` or `colnames(x)` for two axes, and at `dimnames(x)[[i+1]]` otherwise. |
| Dimnames.CompareComponentsAgree | src/attr.c:706-748 | The axis loop succeeds iff every non-NULL target axis agrees with current's. |
| Dimnames.ComponentMismatchReported | src/attr.c:706-748 | The first disagreeing axis ends the loop. Its char-attribute failure is placed inside that axis frame. |
| Dimnames.Compare | src/attr.c:557-603 | A NULL current fails with "have a dimnames attribute". A nonstandard pair defers to `alike`, and its failure is wrapped in `dimnames(x)`. The level is always 0. |
| Dimnames.NonstandardReported | src/attr.c:588-602 | The deferred failure renders inside `dimnames(x)`. |
| Dimnames.DimnamesAgree | src/attr.c:557-761 | On standard dimnames, the corrected comparison succeeds iff three things agree in turn: the attributes, the names and every axis. |
| Dimnames.CompareDimnamesAsWritten | src/attr.c:557-761 | The code as written agrees with the corrected one except on standard dimnames. |
| Dimnames.MissingAttrFrameAsWritten | src/attr.c:542-550 | For a dimnames attribute missing from current, the code as written renders `attr(dimnames(NULL), obj)`, where `attr(dimnames(obj), "foo")` is meant. |
| Dimnames.MissingAttrForgottenAsWritten | src/attr.c:621-660 | As written, a missing dimnames attribute followed by an agreeing one is forgotten and the comparison succeeds. Corrected, it fails. |
| Arbitration.Record | src/attr.c:1076-1182 | Writing a comparison result into slot k touches only that slot. As written, every result overwrites the slot, so a success clears a failure. Corrected, a success never clears a failure, and a later failure in the same slot replaces it. |
| Arbitration.Partner | src/attr.c:1013-1026 | The matching attribute on the other side has the same tag, and -1 means there is none. |
| Arbitration.Dispatch | src/attr.c:1076-1183 | Comparing one pair never touches slot 7 or the attribute count. Only a failed class comparison stops the scan, and only the class rule changes the data-frame flag. An absent target attribute never aborts. Corrected, a failing slot stays failing. |
| Arbitration.DispatchFiles | src/attr.c:1076-1183 | In modes 1 and 2, while slot 6 is clear and current has the attribute, the generic rule replaces slot 6. Otherwise the tag's rule decides whether the step aborts. Its result goes to the tag's slot (`SlotOf`): class 0, tsp 1, dim in mode 0 2 (0 for an implicit-class clash), names 3, row.names 4, dimnames 5, others 6. No other slot changes. A failure is always filed. A names or row.names success leaves the slot alone; any other success replaces it as written and leaves it corrected. Only a class failure stops the loop. |
| Arbitration.Step | src/attr.c:1006-1183 | Slot 7 is written inside the loop only in a reversed comparison, where target has no attributes; each step then fails slot 7 and never stops. That never changes the result: mode 2 already failed slot 7 before the loop, and other modes report nothing when reversed. Not reversed, slot 7 is untouched. A stop happens only on a class attribute. In mode 0, target's class attribute is compared with current's, or with `NULL` when current has none, and the result is filed in slot 0 and stops the loop when it fails. A slot-7 failure is never cleared. Corrected, a failing slot stays failing. |
| Arbitration.Scan | src/attr.c:1006-1184 | When no primary attribute from the start on is tagged class, the scan counts every one of them. Otherwise the count is complete or slot 0 holds a failure. In mode 0, when the first class attribute ahead fails its comparison, that failure is the last thing filed: slot 0 holds it, with its data-frame flag, whatever came before. Slot-7 failures persist. Corrected, a failing slot stays failing. |
| Arbitration.GenericRuleFilesSlot6 | src/attr.c:1176-1182 | In mode 0, a matched attribute with no special rule is compared by the generic rule into slot 6. |
| Arbitration.Pick | src/attr.c:1207-1214 | The result fails iff failures are allowed and some slot failed. It is then the lowest failing slot, with `lvl` set to that slot's index. |
| Arbitration.MissingAttributes | src/attr.c:951-980 | With no target attributes, fails iff mode 2. With no current attributes, fails unless the only target attribute is `srcref` in mode 0. |
| Arbitration.Conclude | src/attr.c:1185-1216 | In mode 2, differing attribute counts fail slot 7, and the lowest failing slot is then reported whether or not the comparison is reversed. Outside mode 2, the lowest failing slot is reported only when not reversed. The result carries the data-frame flag. |
| Arbitration.CompareAttributesWith | src/attr.c:919-1217 | No attributes on either side means success. A target without attributes never aborts. A failure names a slot 0..7. |
| Arbitration.CompareAttributes | src/attr.c:919-1217 | The corrected comparison, where a success never clears a failure: no attributes on either side means success, and a failure names a slot 0..7. |
| Arbitration.CompareAttributesAsWritten | src/attr.c:919-1217 | The comparison as written, with the same guarantees. |
| Arbitration.ClassFailureReported | src/attr.c:1091-1108 | Class has the highest priority. In mode 0, when the class of target's first class attribute disagrees with current's only one, or with `ALIKEC_class(current, NULL)` when current has none, that failure is the result at level 0, whatever the other attributes do and under either policy, unless an internal error aborts the comparison. |
| Arbitration.ReversedIsLenient | src/attr.c:951-959 | A target without attributes accepts any current attributes unless the mode is 2. |
| Arbitration.ReversedStrictFails | src/attr.c:951-959 | In mode 2, a target without attributes rejects a current that has some. |
| Arbitration.StrictCountsAttributes | src/attr.c:1187-1195 | In mode 2, different attribute counts fail. |
| Arbitration.SrcrefAlone | src/attr.c:961-1070 | A target whose only attribute is `srcref` accepts a current without attributes in mode 0. |
| Arbitration.SlotOverwrittenAsWritten | src/attr.c:1176-1182 | As written, a generic failure of one attribute in slot 6 is erased by a later attribute that passes, so the comparison succeeds. |
| Arbitration.SlotKeptCorrected | src/attr.c:1176-1182 | Corrected, the same pair fails at level 6 with the type mismatch of the first attribute. |
| Arbitration.ImplicitClassErasedAsWritten | src/attr.c:1096-1144 | As written, a 2 x 2 matrix and a dim-4 vector, both of class "foo", are alike. The dim rule files the matrix-versus-vector clash in slot 0, and the passing class comparison then overwrites it. |
| Arbitration.ImplicitClassKeptCorrected | src/attr.c:1096-1144 | Corrected, the same pair fails at level 0 with the matrix-versus-vector message. |

## Left out

- Message text is left out: `%g` formatting of tsp numbers, `CSR_len_as_chr`, and the conversion to R objects in `ALIKEC_res_sub_as_sxp` and the `*_ext` entry points. Messages stay a datatype.
- `PROTECT`/`UNPROTECT` balancing, and `Rprintf` debugging output, are left out. Neither changes a result.
- The attribute-depth check (`in_attr`, src/attr.c:1198-1205) is left out. It is incremented just before it is checked and cannot fire.
- `ALIKEC_alike_internal`, `ALIKEC_class`, `ALIKEC_mode` and `R_compute_identical` are parameters (`Host`). src/eval.c and src/validate.c are not part of this model.
- AlikeResults.Fault: `NoNamesWrap` and `NoHoleToFill` stand for two C paths. One is the `error()` when the host's names failure has no call to nest into (src/attr.c:679-692). The other is a `SETCAR` on a missing hole. Both depend on what the host returns.
- StrSub.StrSub models one string. The vector loop, encoding translation in `as_utf8_char`, and the `CHAR_BIT` and argument-type checks are left out. So are the `INT_MAX`/`SIZE_T` guards and the encoding mark of the result. Only the range checks on `chars` are modelled.
- StrSub.NChar does not model the `NA` result for strings longer than `INT_MAX` bytes, because integers are unbounded here.
- TrackingHash.Add does not truncate keys to `max_nchar` (`CSR_strmcpy`). It also does not model a `pfHashSet` failure, which cannot happen for a map. A `pfHashDel` failure is modelled as `Unlog`'s `DeleteFailed`.
- TrackingHash.Add is the corrected growth rule, not the code as written. Its size limit is the largest long on LP64 platforms (64-bit Linux and macOS), 2^63 - 1, in place of the source's 128 there. On 64-bit Windows `long` has 4 bytes, so the source's limit is 8 and `LONG_MAX` is 2^31 - 1; that platform is not modelled. An empty log grows to 1 rather than staying at 0 (both under "## Findings"). It does not model the `int` cast of the returned capacity.
- `VALC_track_hash_test` is modelled only as runs of additions (`AddAll`). Its parsing of reset instructions is left out.
- TrackingTable.Tracker is the array-based counterpart of `TrackingHash`. Its invariant `Valid` is the functional model's, established by the constructor and kept by `Add` and, for `k <= idx`, by `Reset`. `Reset` takes any state, as the source does, and reports the read past the log as `ReadOutOfBounds`. Its contracts are stated with `old` and `fresh`, so it has no row above.
- Arbitration.ClassFailureReported covers attribute mode 0 only. In modes 1 and 2 a class attribute goes to the generic rule in slot 6 while that slot is clear (`DispatchFiles`). It also assumes current has at most one class attribute. The first primary attribute is paired with the last match and later ones with the first, so with two class attributes the partner depends on the position.
- AttrRules.CompareTs compares tsp values as mathematical reals. NaN and floating-point rounding are left out.

## Findings

| source | as written | input that shows it | evidently intended | confidence | as-written member | corrected member |
|---|---|---|---|---|---|---|
| src/trackinghash.c:87-88 | `max_long = (1 << sizeof(long)) / 2` shifts by the byte count, giving 128 | Add 128 distinct keys to `create(128)`, then add one more. Doubling to 256 exceeds 128, so it raises an internal error. | The largest long, 2^63 - 1 on LP64 platforms (64-bit Linux and macOS), i.e. shifting by `sizeof(long) * CHAR_BIT` | high, not executed | TrackingHash.AddAsWrittenStopsAt128 | TrackingHash.AddGrows |
| src/trackinghash.c:82-124 | Growth doubles `idx_max`, so a capacity of 0 stays 0. The key is then written to `contents[0]` of an empty array. | `create(0)`, then add `"a"` | Grow a zero capacity to at least 1 | medium, not executed | TrackingHash.AddAsWrittenFromEmpty | TrackingHash.NewCapacity |
| src/attr.c:542-550 | The hole of the `attr(dimnames(NULL), "tag")` wrap is `CDDR`: the cell of the tag. The object then replaces the tag string. | dimnames with attribute `foo`, against dimnames without it | The hole is the `NULL` inside `dimnames(NULL)` (`CDR(CADR(...))`), giving `attr(dimnames(x), "foo")` | high, not executed | Dimnames.MissingAttrFrameAsWritten | Dimnames.MissingAttrReported |
| src/attr.c:650-659 | A missing dimnames attribute sets a failure, but the loop continues. A later agreeing attribute overwrites the failure with success. | target dimnames attributes `foo`, `bar`, current only `bar` | Stop at the first missing attribute, as a failed comparison does | medium, not executed | Dimnames.MissingAttrForgottenAsWritten | Dimnames.MissingAttrStops |
| src/attr.c:1176-1182 | Each generic attribute writes its result into slot 6. A later success overwrites an earlier failure. | target attributes `a` = `1L` and `b` = `character(0)`; current `a` = `"x"`, `b` = `"y"` | A success never clears a failure; a later failure in the same slot replaces it | medium, not executed | Arbitration.SlotOverwrittenAsWritten | Arbitration.SlotKeptCorrected |
| src/attr.c:1096-1144 | The dim rule files an implicit class clash in slot 0 (lines 1143-1144), and the class rule then writes its own result there (line 1107). A passing class erases the clash. | `matrix(1:4, 2)` against `structure(1:4, dim = 4L)`, both with class `"foo"` | Keep the implicit class failure, as a class failure is kept | medium, not executed | Arbitration.ImplicitClassErasedAsWritten | Arbitration.ImplicitClassKeptCorrected |

=== FILE: alike_results.dfy ===
/**
 The result of a comparison (`struct ALIKEC_res` of src/alike.h), the
 internal errors that abort one, and the comparisons src/attr.c calls but
 does not define.
 */
module AlikeResults {
  import opened RValues
  import opened Wraps

  /**
   What a failed comparison says, one constructor per message src/attr.c
   composes; the text around the values and its number formatting are left to
   the printer. Messages of the recursive `alike` come from the host and may
   use any constructor.
   */
  datatype Msg =
    | NoMsg
    | NotAlike                                         // be `alike` the corresponding element in target
    | ClassAt(tarClass: string, curClass: string)      // "tar" (is "cur"), located by the wrap
    | ClassNamed(tarClass: string, curClass: string)   // class "tar" (is "cur")
    | InheritFrom(cls: string)                         // inherit from class "cls"
    | ImplicitClass(tarKind: string, curKind: string)  // "matrix" (is "vector") and the like
    | HaveDim                                          // have a "dim" attribute
    | DimCount(tarDims: nat, curDims: nat)             // have n dimensions (has m)
    | DimSize(tarSize: int, curSize: int, axis: Axis)  // have n rows, or size n at dimension k
    | IdenticalToTarget                                // be identical to target
    | Quoted(tarName: string, curName: string)         // "tar" (is "cur")
    | HaveDimnames                                     // have a "dimnames" attribute
    | NotBeMissing                                     // not be missing
    | TsValue(tarTsp: real, curTsp: real)              // tar (is cur)
    | HaveAttr(name: string)                           // have attribute "name"
    | NotHaveAttr(name: string)                        // not have attribute "name"
    | TypeMismatch(tarType: SexpType, curType: SexpType)
    | LengthMismatch(tarLen: nat, curLen: nat)
    | HaveAttributes                                   // have attributes
    | HaveAttributesHasNone                            // have attributes (has none)
    | UnexpectedAttr(have: bool, name: string)         // (not) have attributes (has attribute "name")
    | AttrCount(tarCount: nat, curCount: nat)          // have n attributes (has m)

  datatype Axis = Rows | Columns | Dimension(k: nat)

  /** `struct ALIKEC_res`: success, the message, where it happened, the data-frame flag and the priority level. */
  datatype Res = Res(success: bool, msg: Msg, wrap: Wrap, df: bool, lvl: int)

  /** `ALIKEC_res_init()`: success with an empty wrap. */
  const Init: Res := Res(true, NoMsg, [], false, 0)

  /** A failure with the given message and wrap, the other fields as initialised. */
  function Fail(msg: Msg, wrap: Wrap): (r: Res)
    ensures !r.success && r.msg == msg && r.wrap == wrap && !r.df && r.lvl == 0
  {
    Res(false, msg, wrap, false, 0)
  }

  /**
   Which reading of src/attr.c a comparison follows: the code as written, or
   the code with the defects listed in README.md corrected.
   */
  datatype Policy = AsWritten | Corrected

  /** The `Internal Error` aborts of src/attr.c. */
  datatype Fault =
    | TypesDiffer          // Internal Error 266
    | LengthsDiffer        // Internal Error 268
    | NotCharAttr          // Internal Error in compare_special_char_attrs
    | NoNamesWrap          // a names(dimnames()) failure without a call to nest into
    | NoHoleToFill         // SETCAR on the missing hole of an empty wrap

  /**
   The R-level routines src/attr.c calls and does not define: the recursive
   `alike` comparison, `ALIKEC_class` (the class an object has, explicit or
   implicit), `ALIKEC_mode` and `R_compute_identical`.
   */
  datatype Host = Host(
    alike: (Value, Value, Settings) -> Res,
    klass: (Value, Value) -> Value,
    mode: Value -> string,
    identical: (Value, Value) -> bool)
}

=== FILE: arbitration.dfy ===
/**
 `ALIKEC_compare_attributes_internal` of src/attr.c: the comparison of all
 the attributes of two objects. Each attribute of the "primary" object is
 paired with the attribute of the same tag in the other one and compared by
 the rule for its tag. Failures are filed into eight slots by kind, and the
 failure in the lowest slot is reported, its slot becoming the result's
 level:

   0 class (or an implicit class from dim), 1 tsp, 2 dim, 3 names,
   4 row.names, 5 dimnames, 6 other attributes and levels, 7 missing or
   extra attributes and the attribute count.

 The primary object is target, or current when target has no attributes
 ("reversed"); a reversed comparison only reports in attribute mode 2.
 */
module Arbitration {
  import opened RValues
  import opened Wraps
  import opened AlikeResults
  import opened Outcomes
  import opened AttrRules
  import opened Dimnames

  /** A cell of an attribute pairlist, or `R_NilValue` where there is no matching attribute. */
  datatype Entry = NoEntry | Entry(tag: string, value: Value)

  /** The value of an entry, `NULL` for none. */
  function ValueOf(e: Entry): (v: Value)
    ensures e.NoEntry? ==> v.data.Null?
  {
    if e.Entry? then e.value else NULL
  }

  /** Whether an entry is present with tag `tag`. */
  predicate Tagged(e: Entry, tag: string)
  {
    e.Entry? && e.tag == tag
  }

  /** The number of slots, `errs[8]`. */
  const SlotCount: nat := 8

  /** The comparison being made: the two objects, which side is primary, and the settings with the attribute depth raised. */
  datatype Ctx = Ctx(host: Host, target: Value, current: Value, rev: bool, prim: seq<Attr>, sec: seq<Attr>, cfg: Settings, policy: Policy)

  /** The loop state: the slots, the data-frame flag from the class comparison, and the primary attributes visited. */
  datatype State = State(errs: seq<Res>, isDf: bool, primCount: nat)

  /** The state after one attribute, and whether the loop breaks. */
  datatype Next = Next(st: State, stop: bool)

  /**
   File comparison result `r` in slot `k`. As written the slot takes every
   result, so a later success erases an earlier failure; corrected it only
   takes failures, as the names slots do in the source.
   */
  function Record(policy: Policy, errs: seq<Res>, k: nat, r: Res): (errs': seq<Res>)
    requires k < |errs|
    ensures |errs'| == |errs|
    ensures forall j | 0 <= j < |errs| && j != k :: errs'[j] == errs[j]
    ensures !r.success ==> errs'[k] == r
    ensures policy == Corrected && r.success ==> errs'[k] == errs[k]
    ensures policy == AsWritten ==> errs'[k] == r
  {
    if policy == AsWritten || !r.success then errs[k := r] else errs
  }

  /** Every failing slot of `a` is failing in `b`. */
  predicate KeepsFailures(a: seq<Res>, b: seq<Res>)
    requires |a| == |b|
  {
    forall k | 0 <= k < |a| :: !a[k].success ==> !b[k].success
  }

  /**
   The position in the secondary attributes of the one tagged like primary
   attribute `p`. The first pass over the secondary attributes also counts
   them and so does not stop at a match: it finds the last one.
   */
  function Partner(ctx: Ctx, p: nat): (k: int)
    requires p < |ctx.prim|
    ensures -1 <= k < |ctx.sec|
    ensures k >= 0 ==> ctx.sec[k].tag == ctx.prim[p].tag
    ensures k == -1 <==> forall i | 0 <= i < |ctx.sec| :: ctx.sec[i].tag != ctx.prim[p].tag
  {
    if p == 0 then FindLast(ctx.sec, ctx.prim[p].tag) else Find(ctx.sec, ctx.prim[p].tag)
  }

  /**
   The slot a result is filed in, in the priority order of `struct
   ALIKEC_res` (src/alike.h): class 0, tsp 1, dim 2, names 3, row.names 4,
   dimnames 5, levels and every other attribute 6. A dim result at level 1
   (an implicit class clash) is a class failure. Outside the default
   attribute mode dim has no rule of its own.
   */
  function SlotOf(tag: string, mode: int, lvl: int): nat
  {
    if tag == "class" then 0
    else if tag == "tsp" then 1
    else if tag == "dim" && mode == 0 then (if lvl == 0 then 2 else 0)
    else if tag == "names" then 3
    else if tag == "row.names" then 4
    else if tag == "dimnames" then 5
    else 6
  }

  /** The tag of target's entry; none when target has no such attribute. */
  function TarTag(e: Entry): string
  {
    if e.Entry? then e.tag else ""
  }

  /**
   The comparison the rule for target's tag makes, as it is filed: the
   class vectors are first completed with `ALIKEC_class`, and a names or
   row.names failure is nested in `names(■)` or `row.names(■)`.
   */
  function Rule(ctx: Ctx, primTag: string, tarEl: Entry, curEl: Entry): Result<Res, Fault>
  {
    var host, cfg := ctx.host, ctx.cfg;
    var curVal, tarVal := ValueOf(curEl), ValueOf(tarEl);
    var tag := TarTag(tarEl);
    if tag == "class" then
      Ok(CompareClass(host, host.klass(if ctx.rev then ctx.current else ctx.target, tarVal),
                      host.klass(if ctx.rev then ctx.target else ctx.current, curVal), cfg))
    else if tag == "names" || tag == "row.names" then
      var nc :- CompareCharAttrs(host, tarVal, curVal, cfg, false);
      Ok(if nc.success then nc else nc.(wrap := WrapAround(nc.wrap, tag)))
    else if tag == "dim" && cfg.attrMode == 0 then Ok(CompareDims(host, tarVal, curVal, ctx.target, ctx.current, cfg))
    else if tag == "dimnames" then
      if ctx.policy == Corrected then CompareDimnames(host, tarVal, curVal, cfg)
      else CompareDimnamesAsWritten(host, tarVal, curVal, cfg)
    else if tag == "levels" then CompareLevels(host, tarVal, curVal, cfg)
    else if tag == "tsp" then Ok(CompareTs(host, tarVal, curVal, cfg))
    else Ok(CompareSimple(host, tarVal, curVal, primTag, cfg))
  }

  /** Attribute modes 1 and 2 first try the generic rule, while slot 6 is clear and current has the attribute. */
  predicate Baseline(ctx: Ctx, st: State, curEl: Entry)
    requires |st.errs| == SlotCount
  {
    ctx.cfg.attrMode != 0 && !ValueOf(curEl).data.Null? && st.errs[6].success
  }

  /**
   The comparison of one pair of attribute values, filed into its slot: the
   generic rule as a baseline in attribute modes 1 and 2 while slot 6 is
   clear, otherwise the rule for the target tag. A class failure breaks the
   loop.
   */
  function Dispatch(ctx: Ctx, st: State, primTag: string, tarEl: Entry, curEl: Entry): (r: Result<Next, Fault>)
    requires |st.errs| == SlotCount
    ensures r.Ok? ==> |r.value.st.errs| == SlotCount && r.value.st.primCount == st.primCount
    ensures r.Ok? ==> r.value.st.errs[7] == st.errs[7]
    ensures r.Ok? && r.value.stop ==> !r.value.st.errs[0].success && Tagged(tarEl, "class")
    ensures r.Ok? && !Tagged(tarEl, "class") ==> r.value.st.isDf == st.isDf && !r.value.stop
    ensures tarEl.NoEntry? ==> r.Ok?
    ensures r.Ok? && ctx.policy == Corrected ==> KeepsFailures(st.errs, r.value.st.errs)
  {
    var host, cfg, errs := ctx.host, ctx.cfg, st.errs;
    var curVal, tarVal := ValueOf(curEl), ValueOf(tarEl);
    if cfg.attrMode != 0 && !curVal.data.Null? && errs[6].success then
      Ok(Next(st.(errs := errs[6 := CompareSimple(host, tarVal, curVal, primTag, cfg)]), false))
    else if Tagged(tarEl, "class") then
      var curClass := host.klass(if ctx.rev then ctx.target else ctx.current, curVal);
      var tarClass := host.klass(if ctx.rev then ctx.current else ctx.target, tarVal);
      var cc := CompareClass(host, tarClass, curClass, cfg);
      Ok(Next(st.(errs := Record(ctx.policy, errs, 0, cc), isDf := cc.df), !cc.success))
    else if Tagged(tarEl, "names") || Tagged(tarEl, "row.names") then
      var nc :- CompareCharAttrs(host, tarVal, curVal, cfg, false);
      var k := if tarEl.tag == "names" then 3 else 4;
      Ok(Next(if nc.success then st else st.(errs := errs[k := nc.(wrap := WrapAround(nc.wrap, tarEl.tag))]), false))
    else if Tagged(tarEl, "dim") && cfg.attrMode == 0 then
      var dc := CompareDims(host, tarVal, curVal, ctx.target, ctx.current, cfg);
      Ok(Next(st.(errs := Record(ctx.policy, errs, if dc.lvl != 0 then 0 else 2, dc)), false))
    else if Tagged(tarEl, "dimnames") then
      var dc :- if ctx.policy == Corrected then CompareDimnames(host, tarVal, curVal, cfg)
                else CompareDimnamesAsWritten(host, tarVal, curVal, cfg);
      Ok(Next(st.(errs := Record(ctx.policy, errs, 5, dc)), false))
    else if Tagged(tarEl, "levels") then
      var lc :- CompareLevels(host, tarVal, curVal, cfg);
      Ok(Next(st.(errs := Record(ctx.policy, errs, 6, lc)), false))
    else if Tagged(tarEl, "tsp") then
      Ok(Next(st.(errs := Record(ctx.policy, errs, 1, CompareTs(host, tarVal, curVal, cfg))), false))
    else
      Ok(Next(st.(errs := Record(ctx.policy, errs, 6, CompareSimple(host, tarVal, curVal, primTag, cfg))), false))
  }

  /**
   Where `Dispatch` files a result: the baseline of attribute modes 1 and 2
   replaces slot 6; otherwise the result of the tag's rule goes to the slot
   of the priority order, and no other slot changes. A failure is always
   filed. A success leaves the names slots alone, and the others too once
   corrected; as written it replaces them. Only a class failure stops the
   loop, and only the class rule sets the data-frame flag.
   */
  lemma DispatchFiles(ctx: Ctx, st: State, primTag: string, tarEl: Entry, curEl: Entry)
    requires |st.errs| == SlotCount
    ensures var r := Dispatch(ctx, st, primTag, tarEl, curEl);
      Baseline(ctx, st, curEl) ==>
        r == Ok(Next(st.(errs := st.errs[6 := CompareSimple(ctx.host, ValueOf(tarEl), ValueOf(curEl), primTag, ctx.cfg)]), false))
    ensures var r := Dispatch(ctx, st, primTag, tarEl, curEl);
      !Baseline(ctx, st, curEl) ==> (r.Ok? <==> Rule(ctx, primTag, tarEl, curEl).Ok?)
    ensures var r := Dispatch(ctx, st, primTag, tarEl, curEl);
      !Baseline(ctx, st, curEl) && r.Ok? ==>
        var c := Rule(ctx, primTag, tarEl, curEl).value;
        var tag := TarTag(tarEl);
        var k := SlotOf(tag, ctx.cfg.attrMode, c.lvl);
        && (forall j | 0 <= j < SlotCount && j != k :: r.value.st.errs[j] == st.errs[j])
        && (!c.success ==> r.value.st.errs[k] == c)
        && (c.success && (ctx.policy == Corrected || tag in {"names", "row.names"}) ==> r.value.st.errs[k] == st.errs[k])
        && (c.success && ctx.policy == AsWritten && tag !in {"names", "row.names"} ==> r.value.st.errs[k] == c)
        && (r.value.stop <==> tag == "class" && !c.success)
        && r.value.st.isDf == (if tag == "class" then c.df else st.isDf)
  {
    var tag := TarTag(tarEl);
    if Baseline(ctx, st, curEl) {
    } else if tag == "class" {
    } else if tag == "names" || tag == "row.names" {
    } else if tag == "dim" && ctx.cfg.attrMode == 0 {
    } else if tag == "dimnames" {
    } else if tag == "levels" {
    } else if tag == "tsp" {
    } else {
    }
  }

  /**
   The class comparison the loop makes for primary attribute `pc` of target,
   paired with its partner in current, or with `NULL` when current has none.
   */
  function LoopClass(ctx: Ctx, pc: nat): Res
    requires pc < |ctx.prim|
  {
    var k := Partner(ctx, pc);
    CompareClass(ctx.host, ctx.host.klass(ctx.target, ctx.prim[pc].value),
                 ctx.host.klass(ctx.current, if k >= 0 then ctx.sec[k].value else NULL), ctx.cfg)
  }

  /** The first primary attribute from `p` on tagged class, or `|prim|`. */
  function NextClass(prim: seq<Attr>, p: nat): (i: nat)
    requires p <= |prim|
    ensures p <= i <= |prim|
    ensures forall j | p <= j < i :: prim[j].tag != "class"
    ensures i < |prim| ==> prim[i].tag == "class"
    decreases |prim| - p
  {
    if p == |prim| then p
    else if prim[p].tag == "class" then p
    else NextClass(prim, p + 1)
  }

  /**
   One pass of the loop, for primary attribute `p`: pair it with its
   partner, record an unmatched attribute of current in slot 7, skip
   `srcref` in the default attribute mode, and compare.
   */
  function Step(ctx: Ctx, st: State, p: nat): (r: Result<Next, Fault>)
    requires p < |ctx.prim| && |st.errs| == SlotCount
    ensures r.Ok? ==> |r.value.st.errs| == SlotCount && r.value.st.primCount == st.primCount
    ensures r.Ok? && !st.errs[7].success ==> !r.value.st.errs[7].success
    ensures r.Ok? && r.value.stop ==> !r.value.st.errs[0].success && ctx.prim[p].tag == "class"
    ensures !ctx.rev && r.Ok? ==> r.value.st.errs[7] == st.errs[7]
    ensures ctx.rev && ctx.sec == [] ==> r.Ok? && r.value.st.isDf == st.isDf && !r.value.stop
    ensures ctx.rev && ctx.sec == [] ==> !r.value.st.errs[7].success
    ensures r.Ok? && ctx.policy == Corrected ==> KeepsFailures(st.errs, r.value.st.errs)
    ensures !ctx.rev && ctx.cfg.attrMode == 0 && ctx.prim[p].tag == "class" ==>
      var c := LoopClass(ctx, p);
      r == Ok(Next(st.(errs := Record(ctx.policy, st.errs, 0, c), isDf := c.df), !c.success))
  {
    var primEl := ctx.prim[p];
    var k := Partner(ctx, p);
    var secEl := if k >= 0 then Entry(ctx.sec[k].tag, ctx.sec[k].value) else NoEntry;
    var primE := Entry(primEl.tag, primEl.value);
    var tarEl := if ctx.rev then secEl else primE;
    var curEl := if ctx.rev then primE else secEl;
    var isSrcref := Tagged(tarEl, "srcref");
    if tarEl.NoEntry? && (ctx.cfg.attrMode == 2 || !isSrcref) && st.errs[7].success then
      var unmatched := Fail(UnexpectedAttr(curEl.NoEntry?, primEl.tag), []);
      Dispatch(ctx, st.(errs := st.errs[7 := unmatched]), primEl.tag, tarEl, curEl)
    else if isSrcref && ctx.cfg.attrMode == 0 then Ok(Next(st, false))
    else Dispatch(ctx, st, primEl.tag, tarEl, curEl)
  }

  /** The loop over the primary attributes from `p` on; a class failure ends it early. */
  function Scan(ctx: Ctx, st: State, p: nat): (r: Result<State, Fault>)
    requires p <= |ctx.prim| && |st.errs| == SlotCount
    ensures r.Ok? ==> |r.value.errs| == SlotCount
    ensures r.Ok? ==> r.value.primCount == st.primCount + (|ctx.prim| - p) || !r.value.errs[0].success
    ensures r.Ok? && (forall i | p <= i < |ctx.prim| :: ctx.prim[i].tag != "class") ==>
      r.value.primCount == st.primCount + (|ctx.prim| - p)
    ensures r.Ok? && !st.errs[7].success ==> !r.value.errs[7].success
    ensures ctx.rev && ctx.sec == [] ==> r.Ok? && r.value.isDf == st.isDf
    ensures ctx.rev && ctx.sec == [] && p < |ctx.prim| ==> !r.value.errs[7].success
    ensures r.Ok? && ctx.policy == Corrected ==> KeepsFailures(st.errs, r.value.errs)
    ensures var pc := NextClass(ctx.prim, p);
      r.Ok? && !ctx.rev && ctx.cfg.attrMode == 0 && pc < |ctx.prim| && !LoopClass(ctx, pc).success ==>
        r.value.errs[0] == LoopClass(ctx, pc) && r.value.isDf == LoopClass(ctx, pc).df
    decreases |ctx.prim| - p
  {
    if p == |ctx.prim| then Ok(st)
    else
      var n :- Step(ctx, st.(primCount := st.primCount + 1), p);
      if n.stop then Ok(n.st) else Scan(ctx, n.st, p + 1)
  }

  /** The first failing slot from `from` on, or `|errs|`. */
  function FirstFailure(errs: seq<Res>, from: nat): (i: nat)
    requires from <= |errs|
    ensures from <= i <= |errs|
    ensures forall j | from <= j < i :: errs[j].success
    ensures i < |errs| ==> !errs[i].success
    decreases |errs| - from
  {
    if from == |errs| then from
    else if !errs[from].success then from
    else FirstFailure(errs, from + 1)
  }

  /**
   The final choice: the failure in the lowest slot, with the slot as its
   level, when reporting is allowed; success otherwise.
   */
  function Pick(errs: seq<Res>, allow: bool): (r: Res)
    ensures r.success <==> !allow || forall i | 0 <= i < |errs| :: errs[i].success
    ensures r.success ==> r == Init
    ensures !r.success ==>
      && 0 <= r.lvl < |errs|
      && r == errs[r.lvl].(lvl := r.lvl)
      && forall j | 0 <= j < r.lvl :: errs[j].success
  {
    var i := FirstFailure(errs, 0);
    if allow && i < |errs| then errs[i].(lvl := i) else Init
  }

  /** The eight slots before the loop: all clear except possibly slot 7. */
  function Slots(first: Res): (errs: seq<Res>)
    ensures |errs| == SlotCount && errs[7] == first
    ensures forall k | 0 <= k < 7 :: errs[k] == Init
  {
    [Init, Init, Init, Init, Init, Init, Init, first]
  }

  /**
   Slot 7 before the loop: reversed in attribute mode 2, target should have
   attributes; not reversed, current should have some unless target's only
   attribute is `srcref` and the attribute mode is the default.
   */
  function MissingAttributes(ta: seq<Attr>, ca: seq<Attr>, mode: int): (r: Res)
    requires ta != [] || ca != []
    ensures ta == [] ==> (r.success <==> mode != 2)
    ensures ta != [] ==> (r.success <==> ca != [] || (mode == 0 && |ta| == 1 && ta[0].tag == "srcref"))
  {
    if ta == [] then (if mode == 2 then Fail(HaveAttributes, []) else Init)
    else if ca == [] && (mode != 0 || !(ta[0].tag == "srcref" && |ta| == 1)) then Fail(HaveAttributesHasNone, [])
    else Init
  }

  /** The comparison of all attributes, under the given reading of the source. */
  function CompareAttributesWith(host: Host, target: Value, current: Value, cfg: Settings, policy: Policy): (r: Result<Res, Fault>)
    ensures target.attrs == [] && current.attrs == [] ==> r == Ok(Init)
    ensures target.attrs == [] && current.attrs != [] ==> r.Ok?
    ensures r.Ok? && !r.value.success ==> 0 <= r.value.lvl < SlotCount
  {
    var ta, ca := target.attrs, current.attrs;
    if ta == [] && ca == [] then Ok(Init)
    else
      var rev := ta == [];
      var prim := if rev then ca else ta;
      var sec := if rev then ta else ca;
      var mode := cfg.attrMode;
      var ctx := Ctx(host, target, current, rev, prim, sec, cfg.(inAttr := cfg.inAttr + 1), policy);
      var st :- Scan(ctx, State(Slots(MissingAttributes(ta, ca, mode)), false, 0), 0);
      Ok(Conclude(st, mode, |sec|, rev))
  }

  /**
   After the loop: attribute mode 2 demands as many attributes in both
   objects, then the lowest failing slot is reported unless the comparison is
   reversed outside mode 2.
   */
  function Conclude(st: State, mode: int, secCount: nat, rev: bool): (r: Res)
    requires |st.errs| == SlotCount
    ensures mode == 2 && st.primCount != secCount ==> !r.success
    ensures mode != 2 ==> r == Pick(st.errs, !rev).(df := st.isDf)
    ensures mode == 2 && st.primCount == secCount ==> r == Pick(st.errs, true).(df := st.isDf)
    ensures mode == 2 && st.primCount != secCount ==>
      r == Pick(st.errs[7 := Fail(AttrCount(st.primCount, secCount), [])], true).(df := st.isDf)
    ensures !r.success ==> 0 <= r.lvl < SlotCount
  {
    var errs := if mode == 2 && st.primCount != secCount then st.errs[7 := Fail(AttrCount(st.primCount, secCount), [])] else st.errs;
    assert mode == 2 && st.primCount != secCount ==> !errs[7].success;
    Pick(errs, !rev || mode == 2).(df := st.isDf)
  }

  /** `ALIKEC_compare_attributes_internal` corrected: a success never clears a failure; a later failure in the same slot replaces it. */
  function CompareAttributes(host: Host, target: Value, current: Value, cfg: Settings): (r: Result<Res, Fault>)
    ensures target.attrs == [] && current.attrs == [] ==> r == Ok(Init)
    ensures r.Ok? && !r.value.success ==> 0 <= r.value.lvl < SlotCount
  {
    CompareAttributesWith(host, target, current, cfg, Corrected)
  }

  /** `ALIKEC_compare_attributes_internal` as written. */
  function CompareAttributesAsWritten(host: Host, target: Value, current: Value, cfg: Settings): (r: Result<Res, Fault>)
    ensures target.attrs == [] && current.attrs == [] ==> r == Ok(Init)
    ensures r.Ok? && !r.value.success ==> 0 <= r.value.lvl < SlotCount
  {
    CompareAttributesWith(host, target, current, cfg, AsWritten)
  }

  // ---------------------------------------------------------------- properties

  /** When only current has attributes, outside attribute mode 2 nothing is reported. */
  lemma ReversedIsLenient(host: Host, target: Value, current: Value, cfg: Settings, policy: Policy)
    requires target.attrs == [] && current.attrs != [] && cfg.attrMode != 2
    ensures CompareAttributesWith(host, target, current, cfg, policy) == Ok(Init)
  {
  }

  /** When only current has attributes, attribute mode 2 reports a failure. */
  lemma ReversedStrictFails(host: Host, target: Value, current: Value, cfg: Settings, policy: Policy)
    requires target.attrs == [] && current.attrs != [] && cfg.attrMode == 2
    ensures var r := CompareAttributesWith(host, target, current, cfg, policy);
      r.Ok? && !r.value.success
  {
  }

  /** In attribute mode 2 the objects must have as many attributes. */
  lemma StrictCountsAttributes(host: Host, target: Value, current: Value, cfg: Settings, policy: Policy)
    requires cfg.attrMode == 2 && |target.attrs| != |current.attrs|
    ensures var r := CompareAttributesWith(host, target, current, cfg, policy);
      r.Ok? ==> !r.value.success
  {
  }

  /** A target whose only attribute is `srcref` matches a current without attributes in the default mode. */
  lemma SrcrefAlone(host: Host, target: Value, current: Value, cfg: Settings, policy: Policy, v: Value)
    requires target.attrs == [Attr("srcref", v)] && current.attrs == [] && cfg.attrMode == 0
    ensures CompareAttributesWith(host, target, current, cfg, policy) == Ok(Init)
  {
    var ctx := Ctx(host, target, current, false, target.attrs, [], cfg.(inAttr := cfg.inAttr + 1), policy);
    var st := State(Slots(Init), false, 0);
    assert MissingAttributes(target.attrs, [], 0) == Init;
    assert Partner(ctx, 0) == -1;
    assert Step(ctx, st.(primCount := 1), 0) == Ok(Next(st.(primCount := 1), false));
    assert Scan(ctx, st, 0) == Ok(st.(primCount := 1));
    assert Pick(Slots(Init), true) == Init;
  }

  // ---------------------------------------------------------------- slot 6 is overwritten

  /** The tags with a rule of their own, and `srcref`. */
  const SpecialTags: set<string> := {"class", "names", "row.names", "dim", "dimnames", "levels", "tsp", "srcref"}

  /**
   In the default attribute mode an attribute of target with no rule of its
   own, matched in current, goes to the generic rule and is filed in slot 6.
   */
  lemma GenericRuleFilesSlot6(ctx: Ctx, st: State, p: nat)
    requires !ctx.rev && ctx.cfg.attrMode == 0 && p < |ctx.prim| && |st.errs| == SlotCount
    requires ctx.prim[p].tag !in SpecialTags
    requires Partner(ctx, p) >= 0
    ensures var c := ctx.sec[Partner(ctx, p)].value;
      var simple := CompareSimple(ctx.host, ctx.prim[p].value, c, ctx.prim[p].tag, ctx.cfg);
      Step(ctx, st, p) == Ok(Next(st.(errs := Record(ctx.policy, st.errs, 6, simple)), false))
  {
  }

  /** Target attributes `a` (an integer) and `b` (an empty character vector). */
  const TwoAttrs: Value := Value(Reals([1.0]), [Attr("a", Value(Ints([1]), [])), Attr("b", Value(Strs([]), []))])

  /** Current attributes `a` and `b`, both character vectors. */
  const TwoStrAttrs: Value := Value(Reals([1.0]), [Attr("a", Value(Strs(["x"]), [])), Attr("b", Value(Strs(["y"]), []))])

  /** The type mismatch of attribute `a`, located at `attr(■, "a")`. */
  const MismatchOfA: Res := Fail(TypeMismatch(IntSxp, StrSxp), [AttrWrap("a")])

  /** The comparison of `TwoAttrs` with `TwoStrAttrs`, as the loop sees it. */
  function TwoAttrsCtx(host: Host, cfg: Settings, policy: Policy): (ctx: Ctx)
    ensures !ctx.rev && ctx.prim == TwoAttrs.attrs && ctx.sec == TwoStrAttrs.attrs && ctx.policy == policy
  {
    Ctx(host, TwoAttrs, TwoStrAttrs, false, TwoAttrs.attrs, TwoStrAttrs.attrs, cfg, policy)
  }

  /** Attribute `a` fails the generic rule and is filed in slot 6. */
  lemma TwoAttrsFirst(host: Host, cfg: Settings, policy: Policy)
    requires cfg.attrMode == 0
    ensures Step(TwoAttrsCtx(host, cfg, policy), State(Slots(Init), false, 1), 0)
         == Ok(Next(State(Slots(Init)[6 := MismatchOfA], false, 1), false))
  {
    var ctx := TwoAttrsCtx(host, cfg, policy);
    assert CompareSimple(host, Value(Ints([1]), []), Value(Strs(["x"]), []), "a", cfg) == MismatchOfA;
    assert Partner(ctx, 0) == 0 by { assert FindLast(ctx.sec, "a") == 0; }
    GenericRuleFilesSlot6(ctx, State(Slots(Init), false, 1), 0);
  }

  /** Attribute `b` passes the generic rule; as written its success replaces slot 6. */
  lemma TwoAttrsSecond(host: Host, cfg: Settings, policy: Policy)
    requires cfg.attrMode == 0
    ensures Step(TwoAttrsCtx(host, cfg, policy), State(Slots(Init)[6 := MismatchOfA], false, 2), 1)
         == Ok(Next(State(if policy == AsWritten then Slots(Init) else Slots(Init)[6 := MismatchOfA], false, 2), false))
  {
    var ctx := TwoAttrsCtx(host, cfg, policy);
    assert CompareSimple(host, Value(Strs([]), []), Value(Strs(["y"]), []), "b", cfg) == Init;
    assert Partner(ctx, 1) == 1 by { assert Find(ctx.sec, "b") == 1; }
    GenericRuleFilesSlot6(ctx, State(Slots(Init)[6 := MismatchOfA], false, 2), 1);
    assert Slots(Init)[6 := MismatchOfA][6 := Init] == Slots(Init);
  }

  /** The loop over `TwoAttrs` against `TwoStrAttrs`: slot 6 ends with `b`'s success as written, `a`'s failure corrected. */
  lemma TwoAttrsScan(host: Host, cfg: Settings, policy: Policy)
    requires cfg.attrMode == 0
    ensures Scan(TwoAttrsCtx(host, cfg, policy), State(Slots(Init), false, 0), 0)
         == Ok(State(if policy == AsWritten then Slots(Init) else Slots(Init)[6 := MismatchOfA], false, 2))
  {
    var ctx := TwoAttrsCtx(host, cfg, policy);
    TwoAttrsFirst(host, cfg, policy);
    TwoAttrsSecond(host, cfg, policy);
    var errs := if policy == AsWritten then Slots(Init) else Slots(Init)[6 := MismatchOfA];
    assert Scan(ctx, State(errs, false, 2), 2) == Ok(State(errs, false, 2));
    assert Scan(ctx, State(Slots(Init)[6 := MismatchOfA], false, 1), 1) == Ok(State(errs, false, 2));
  }

  /**
   When both objects have attributes and the mode is the default, the
   comparison reports the lowest failing slot the loop leaves, and an
   internal error of the loop aborts it.
   */
  lemma DefaultModePicksLowest(host: Host, target: Value, current: Value, cfg: Settings, policy: Policy)
    requires target.attrs != [] && current.attrs != [] && cfg.attrMode == 0
    ensures var ctx := Ctx(host, target, current, false, target.attrs, current.attrs, cfg.(inAttr := cfg.inAttr + 1), policy);
      var sc := Scan(ctx, State(Slots(Init), false, 0), 0);
      CompareAttributesWith(host, target, current, cfg, policy)
        == if sc.Ok? then Ok(Pick(sc.value.errs, true).(df := sc.value.isDf)) else Err(sc.error)
  {
    assert MissingAttributes(target.attrs, current.attrs, 0) == Init;
    TargetLedPicksLowest(host, target, current, cfg, policy);
  }

  /**
   Class has the highest priority: in the default attribute mode, when the
   class of target's first class attribute fails against the class of
   current's only one, or against `ALIKEC_class(current, NULL)` when current
   has none, that failure is the result, at level 0, whatever the other
   attributes do, unless an internal error aborts the comparison.
   */
  lemma ClassFailureReported(host: Host, target: Value, current: Value, cfg: Settings, policy: Policy, pc: nat)
    requires cfg.attrMode == 0
    requires pc < |target.attrs| && target.attrs[pc].tag == "class"
    requires forall i | 0 <= i < pc :: target.attrs[i].tag != "class"
    requires FindLast(current.attrs, "class") == Find(current.attrs, "class")
    ensures var k := Find(current.attrs, "class");
      var cc := CompareClass(host, host.klass(target, target.attrs[pc].value),
                             host.klass(current, if k >= 0 then current.attrs[k].value else NULL),
                             cfg.(inAttr := cfg.inAttr + 1));
      var r := CompareAttributesWith(host, target, current, cfg, policy);
      !cc.success && r.Ok? ==> r.value == cc.(lvl := 0)
  {
    var ctx := Ctx(host, target, current, false, target.attrs, current.attrs, cfg.(inAttr := cfg.inAttr + 1), policy);
    assert Partner(ctx, pc) == Find(current.attrs, "class");
    var c := LoopClass(ctx, pc);
    if !c.success {
      var st0 := State(Slots(MissingAttributes(target.attrs, current.attrs, 0)), false, 0);
      assert NextClass(ctx.prim, 0) == pc;
      TargetLedPicksLowest(host, target, current, cfg, policy);
      var sc := Scan(ctx, st0, 0);
      if sc.Ok? {
        assert !sc.value.errs[0].success;
        assert Pick(sc.value.errs, true) == c.(lvl := 0);
      }
    }
  }

  /**
   When target has attributes and the mode is the default, the comparison
   reports the lowest failing slot the loop leaves, starting from the slots
   set before it.
   */
  lemma TargetLedPicksLowest(host: Host, target: Value, current: Value, cfg: Settings, policy: Policy)
    requires target.attrs != [] && cfg.attrMode == 0
    ensures var ctx := Ctx(host, target, current, false, target.attrs, current.attrs, cfg.(inAttr := cfg.inAttr + 1), policy);
      var sc := Scan(ctx, State(Slots(MissingAttributes(target.attrs, current.attrs, 0)), false, 0), 0);
      CompareAttributesWith(host, target, current, cfg, policy)
        == if sc.Ok? then Ok(Pick(sc.value.errs, true).(df := sc.value.isDf)) else Err(sc.error)
  {
    var ctx := Ctx(host, target, current, false, target.attrs, current.attrs, cfg.(inAttr := cfg.inAttr + 1), policy);
    var sc := Scan(ctx, State(Slots(MissingAttributes(target.attrs, current.attrs, 0)), false, 0), 0);
    assert CompareAttributesWith(host, target, current, cfg, policy)
        == if sc.Ok? then Ok(Conclude(sc.value, 0, |current.attrs|, false)) else Err(sc.error);
  }

  /** The whole comparison of `TwoAttrs` with `TwoStrAttrs` picks from the slots the loop leaves. */
  lemma TwoAttrsCompare(host: Host, cfg: Settings, policy: Policy)
    requires cfg.attrMode == 0
    ensures CompareAttributesWith(host, TwoAttrs, TwoStrAttrs, cfg, policy)
         == Ok(Pick(if policy == AsWritten then Slots(Init) else Slots(Init)[6 := MismatchOfA], true).(df := false))
  {
    DefaultModePicksLowest(host, TwoAttrs, TwoStrAttrs, cfg, policy);
    TwoAttrsScan(host, cfg.(inAttr := cfg.inAttr + 1), policy);
  }

  /**
   As written, the type mismatch of attribute `a` is filed in slot 6 and then
   overwritten by the success of attribute `b` (a zero-length target value
   matches anything), so the objects are reported alike.
   */
  lemma SlotOverwrittenAsWritten(host: Host, cfg: Settings)
    requires cfg.attrMode == 0
    ensures CompareAttributesAsWritten(host, TwoAttrs, TwoStrAttrs, cfg) == Ok(Init)
  {
    TwoAttrsCompare(host, cfg, AsWritten);
    assert Pick(Slots(Init), true) == Init;
  }

  /** Corrected, slot 6 keeps the type mismatch of attribute `a`, and it is reported at level 6. */
  lemma SlotKeptCorrected(host: Host, cfg: Settings)
    requires cfg.attrMode == 0
    ensures var r := CompareAttributes(host, TwoAttrs, TwoStrAttrs, cfg);
      && r.Ok? && !r.value.success && r.value.lvl == 6
      && r.value.msg == TypeMismatch(IntSxp, StrSxp)
  {
    TwoAttrsCompare(host, cfg, Corrected);
    var errs := Slots(Init)[6 := MismatchOfA];
    assert !errs[6].success;
    assert forall j | 0 <= j < SlotCount && j != 6 :: errs[j].success;
    assert Pick(errs, true).lvl == 6;
  }

  // ---------------------------------------------------------------- slot 0 is overwritten

  /** The class vector `"foo"`. */
  const FooClass: Value := Value(Strs(["foo"]), [])

  /** A 2 x 2 integer matrix of class "foo". */
  const Square: Value := Value(Ints([1, 2, 3, 4]), [Attr("dim", Value(Ints([2, 2]), [])), Attr("class", FooClass)])

  /** The same four integers with a one-dimensional dim, also of class "foo". */
  const Flat: Value := Value(Ints([1, 2, 3, 4]), [Attr("dim", Value(Ints([4]), [])), Attr("class", FooClass)])

  /** The implicit class clash of a matrix with a vector, as the dim rule files it. */
  const MatrixVersusVector: Res := Res(false, ImplicitClass("matrix", "vector"), [], false, 1)

  /** The comparison of `Square` with `Flat`, as the loop sees it. */
  function SquareCtx(host: Host, cfg: Settings, policy: Policy): (ctx: Ctx)
    ensures !ctx.rev && ctx.prim == Square.attrs && ctx.sec == Flat.attrs && ctx.policy == policy
  {
    Ctx(host, Square, Flat, false, Square.attrs, Flat.attrs, cfg, policy)
  }

  /** The dims give a matrix and a vector: an implicit class failure, filed in slot 0. */
  lemma SquareDimStep(host: Host, cfg: Settings, policy: Policy)
    requires cfg.attrMode == 0
    ensures Step(SquareCtx(host, cfg, policy), State(Slots(Init), false, 1), 0)
         == Ok(Next(State(Slots(Init)[0 := MatrixVersusVector], false, 1), false))
  {
    var ctx := SquareCtx(host, cfg, policy);
    assert Partner(ctx, 0) == 0 by { assert FindLast(ctx.sec, "dim") == 0; }
    assert ImplicitClassError(host, Value(Ints([2, 2]), []), Value(Ints([4]), []), Square, Flat) == ("matrix", "vector");
  }

  /** The classes agree; as written the success replaces the implicit class failure in slot 0. */
  lemma SquareClassStep(host: Host, cfg: Settings, policy: Policy)
    requires cfg.attrMode == 0
    requires host.klass(Square, FooClass) == FooClass && host.klass(Flat, FooClass) == FooClass
    requires host.alike(NULL, NULL, cfg).success
    ensures Step(SquareCtx(host, cfg, policy), State(Slots(Init)[0 := MatrixVersusVector], false, 2), 1)
         == Ok(Next(State(if policy == AsWritten then Slots(Init) else Slots(Init)[0 := MatrixVersusVector], false, 2), false))
  {
    var ctx := SquareCtx(host, cfg, policy);
    assert Partner(ctx, 1) == 1 by { assert Find(ctx.sec, "class") == 1; }
    assert ctx.sec[1].value == FooClass && ctx.prim[1].value == FooClass;
    assert LoopClass(ctx, 1) == CompareClass(host, FooClass, FooClass, cfg);
    assert CompareClass(host, FooClass, FooClass, cfg) == Init by {
      assert Attrib(FooClass) == NULL;
      assert AlikeAttr(host, NULL, NULL, "class", cfg) == Init;
    }
    assert Slots(Init)[0 := MatrixVersusVector][0 := Init] == Slots(Init);
  }

  /** The comparison of `Square` with `Flat` picks from the slots the loop leaves: empty as written, the implicit class failure corrected. */
  lemma SquareCompare(host: Host, cfg: Settings, policy: Policy)
    requires cfg.attrMode == 0
    requires host.klass(Square, FooClass) == FooClass && host.klass(Flat, FooClass) == FooClass
    requires host.alike(NULL, NULL, cfg.(inAttr := cfg.inAttr + 1)).success
    ensures CompareAttributesWith(host, Square, Flat, cfg, policy)
         == Ok(Pick(if policy == AsWritten then Slots(Init) else Slots(Init)[0 := MatrixVersusVector], true).(df := false))
  {
    var cfg' := cfg.(inAttr := cfg.inAttr + 1);
    var ctx := SquareCtx(host, cfg', policy);
    DefaultModePicksLowest(host, Square, Flat, cfg, policy);
    SquareDimStep(host, cfg', policy);
    SquareClassStep(host, cfg', policy);
    var errs := if policy == AsWritten then Slots(Init) else Slots(Init)[0 := MatrixVersusVector];
    assert Scan(ctx, State(errs, false, 2), 2) == Ok(State(errs, false, 2));
    assert Scan(ctx, State(Slots(Init)[0 := MatrixVersusVector], false, 1), 1) == Ok(State(errs, false, 2));
  }

  /**
   As written, a 2 x 2 matrix and a dim-4 vector of the same class are
   alike: the implicit class failure of the dims is filed in slot 0 and the
   class comparison that follows overwrites it with its success.
   */
  lemma ImplicitClassErasedAsWritten(host: Host, cfg: Settings)
    requires cfg.attrMode == 0
    requires host.klass(Square, FooClass) == FooClass && host.klass(Flat, FooClass) == FooClass
    requires host.alike(NULL, NULL, cfg.(inAttr := cfg.inAttr + 1)).success
    ensures CompareAttributesAsWritten(host, Square, Flat, cfg) == Ok(Init)
  {
    SquareCompare(host, cfg, AsWritten);
    assert Pick(Slots(Init), true) == Init;
  }

  /** Corrected, the implicit class failure survives the passing class comparison and is reported at level 0. */
  lemma ImplicitClassKeptCorrected(host: Host, cfg: Settings)
    requires cfg.attrMode == 0
    requires host.klass(Square, FooClass) == FooClass && host.klass(Flat, FooClass) == FooClass
    requires host.alike(NULL, NULL, cfg.(inAttr := cfg.inAttr + 1)).success
    ensures var r := CompareAttributes(host, Square, Flat, cfg);
      && r.Ok? && !r.value.success && r.value.lvl == 0
      && r.value.msg == ImplicitClass("matrix", "vector")
  {
    SquareCompare(host, cfg, Corrected);
    assert !Slots(Init)[0 := MatrixVersusVector][0].success;
  }
}

=== FILE: attr_rules.dfy ===
/**
 The comparison rules for single attributes in src/attr.c: class, dim,
 the character attributes (names, row.names, levels), tsp, and the generic
 rule for every other attribute.
 */
module AttrRules {
  import opened RValues
  import opened Wraps
  import opened AlikeResults
  import opened Outcomes

  /**
   `ALIKEC_alike_attr`: compare two attribute values with the recursive
   `alike`; a failure is reported as "should be alike" at the attribute's
   accessor, not with the nested message.
   */
  function AlikeAttr(host: Host, t: Value, c: Value, tag: string, cfg: Settings): (r: Res)
    ensures r.success <==> host.alike(t, c, cfg).success
    ensures !r.success ==> r.msg == NotAlike && r.wrap == [AttrWrap(tag)]
    ensures r.lvl == 0 && !r.df
  {
    if host.alike(t, c, cfg).success then Init else Fail(NotAlike, [AttrWrap(tag)])
  }

  // ---------------------------------------------------------------- class

  /** The number of class entries compared: the length of the shorter vector. */
  function Overlap(tar: seq<string>, cur: seq<string>): (n: nat)
    ensures n <= |tar| && n <= |cur| && (n == |tar| || n == |cur|)
  {
    if |tar| > |cur| then |cur| else |tar|
  }

  /** The first `k` in `from..n` where `cur[d + k]` differs from `tar[k]`, or `n`. */
  function FirstClassMismatch(tar: seq<string>, cur: seq<string>, d: nat, from: nat, n: nat): (m: nat)
    requires n <= |tar| && d + n <= |cur| && from <= n
    ensures from <= m <= n
    ensures forall k | from <= k < m :: cur[d + k] == tar[k]
    ensures m < n ==> cur[d + m] != tar[m]
    decreases n - from
  {
    if from == n then n
    else if cur[d + from] != tar[from] then from
    else FirstClassMismatch(tar, cur, d, from + 1, n)
  }

  /** `` `[`(class(■), pos) ``. */
  function ClassWrap(pos: int): Expr
  {
    Call("[", [Accessor("class"), Num(pos)])
  }

  /**
   `ALIKEC_compare_class`: the last `n` classes of current are compared in
   order with the first `n` of target, `n` the shorter length, so current may
   add classes in front. Then target must not have more classes than current,
   and the attributes of the two class vectors must be alike. The `df` flag
   records whether "data.frame" is among the target classes compared.
   */
  function CompareClass(host: Host, t: Value, c: Value, cfg: Settings): (r: Res)
    ensures !(t.data.Strs? && c.data.Strs?) ==> r == AlikeAttr(host, t, c, "class", cfg)
    ensures t.data.Strs? && c.data.Strs? ==>
      var tar, cur := t.data.strs, c.data.strs;
      var n := Overlap(tar, cur);
      && (r.df <==> "data.frame" in tar[..n])
      && (r.success <==>
            && (forall k | 0 <= k < n :: cur[|cur| - n + k] == tar[k])
            && |tar| <= |cur|
            && host.alike(Attrib(t), Attrib(c), cfg).success)
  {
    if !(t.data.Strs? && c.data.Strs?) then AlikeAttr(host, t, c, "class", cfg)
    else
      var tar, cur := t.data.strs, c.data.strs;
      var n := Overlap(tar, cur);
      var d := |cur| - n;
      var m := FirstClassMismatch(tar, cur, d, 0, n);
      var r :=
        if m < n then
          if |cur| > 1 then Fail(ClassAt(tar[m], cur[d + m]), [ClassWrap(d + m + 1)])
          else Fail(ClassNamed(tar[m], cur[d + m]), [])
        else if |tar| > |cur| then Fail(InheritFrom(tar[|cur|]), [])
        else AlikeAttr(host, Attrib(t), Attrib(c), "class", cfg);
      r.(df := "data.frame" in tar[..n])
  }

  /**
   The first mismatching class is reported with both class names, located at
   its 1-based position in current's class vector when current has more than
   one class.
   */
  lemma ClassMismatchReported(host: Host, t: Value, c: Value, cfg: Settings)
    requires t.data.Strs? && c.data.Strs?
    requires FirstClassMismatch(t.data.strs, c.data.strs, |c.data.strs| - Overlap(t.data.strs, c.data.strs), 0, Overlap(t.data.strs, c.data.strs)) < Overlap(t.data.strs, c.data.strs)
    ensures var tar, cur := t.data.strs, c.data.strs;
      var n := Overlap(tar, cur);
      var m := FirstClassMismatch(tar, cur, |cur| - n, 0, n);
      var r := CompareClass(host, t, c, cfg);
      && !r.success
      && (forall k | 0 <= k < m :: cur[|cur| - n + k] == tar[k])
      && (|cur| > 1 ==>
            && r.msg == ClassAt(tar[m], cur[|cur| - n + m])
            && r.wrap == [ClassWrap(|cur| - n + m + 1)])
      && (|cur| <= 1 ==> r.msg == ClassNamed(tar[m], cur[|cur| - n + m]) && r.wrap == [])
  {
  }

  /** The wrap of a class mismatch at position `pos` renders as `class(x)[pos]`. */
  lemma RenderClassWrap(w: Wrap, pos: int, x: Expr)
    requires w == [ClassWrap(pos)]
    ensures Render(w, x) == Call("[", [Call("class", [x]), Num(pos)])
  {
    RenderSingle(ClassWrap(pos), x);
    PlugCall2("[", Accessor("class"), Num(pos), x);
    PlugAccessor("class", x);
  }

  /** When every compared class matches but target has more, current must inherit from target's next class. */
  lemma ClassInheritReported(host: Host, t: Value, c: Value, cfg: Settings)
    requires t.data.Strs? && c.data.Strs? && |t.data.strs| > |c.data.strs|
    requires forall k | 0 <= k < |c.data.strs| :: c.data.strs[k] == t.data.strs[k]
    ensures CompareClass(host, t, c, cfg).msg == InheritFrom(t.data.strs[|c.data.strs|])
    ensures !CompareClass(host, t, c, cfg).success
  {
  }

  // ---------------------------------------------------------------- dim

  function Cap3(n: nat): nat
  {
    if n > 3 then 3 else n
  }

  function MatrixOrArray(cap: nat): string
  {
    if cap > 2 then "array" else "matrix"
  }

  /**
   The implicit class two dim attributes give their atomic objects (vector,
   matrix or array), as the pair of words to report; the first word is empty
   when the implicit classes agree.
   */
  function ImplicitClassError(host: Host, t: Value, c: Value, tObj: Value, cObj: Value): (string, string)
  {
    var tcap, ccap := Cap3(Length(t)), Cap3(Length(c));
    if tcap > 1 && IsVectorAtomic(tObj) then
      if c.data.Null? then (MatrixOrArray(tcap), host.mode(cObj))
      else if IsVectorAtomic(cObj) && ccap != tcap then
        (MatrixOrArray(tcap), if ccap == 2 then "matrix" else if ccap == 1 then "vector" else "array")
      else if !IsVectorAtomic(cObj) then (host.mode(tObj), TypeName(TypeOf(cObj)))
      else ("", "")
    else if ccap > 1 && IsVectorAtomic(cObj) then
      if IsVectorAtomic(tObj) then (host.mode(tObj), if ccap == 2 then "matrix" else "array")
      else (host.mode(tObj), host.mode(cObj))
    else ("", "")
  }

  /** The first `i` from `from` on where target's dimension is nonzero and differs from current's, or `|tar|`. */
  function FirstDimMismatch(tar: seq<int>, cur: seq<int>, from: nat): (i: nat)
    requires |tar| == |cur| && from <= |tar|
    ensures from <= i <= |tar|
    ensures forall j | from <= j < i :: tar[j] == 0 || tar[j] == cur[j]
    ensures i < |tar| ==> tar[i] != 0 && tar[i] != cur[i]
    decreases |tar| - from
  {
    if from == |tar| then from
    else if tar[from] != 0 && tar[from] != cur[from] then from
    else FirstDimMismatch(tar, cur, from + 1)
  }

  predicate DimLike(v: Value)
  {
    v.data.Ints? || v.data.Null?
  }

  function DimsOf(v: Value): seq<int>
  {
    if v.data.Ints? then v.data.ints else []
  }

  /** How a dimension is named: rows and columns for a matrix, else by its 1-based position. */
  function AxisOf(ndim: nat, i: nat): Axis
  {
    if ndim == 2 then (if i == 0 then Rows else Columns) else Dimension(i + 1)
  }

  /**
   `ALIKEC_compare_dims`: dims that are not integer vectors go to the generic
   rule. Otherwise an implicit class mismatch between the objects is reported
   first, at level 1; then current must have dims, as many as target, and each
   nonzero target dimension must equal current's, zero matching anything.
   */
  function CompareDims(host: Host, t: Value, c: Value, tObj: Value, cObj: Value, cfg: Settings): (r: Res)
    ensures !(DimLike(t) && DimLike(c)) ==> r == AlikeAttr(host, t, c, "dim", cfg)
    ensures r.lvl == 0 || r.lvl == 1
    ensures DimLike(t) && DimLike(c) ==>
      && (r.lvl == 1 <==> ImplicitClassError(host, t, c, tObj, cObj).0 != "")
      && (r.lvl == 0 && c.data.Null? ==> r == Fail(HaveDim, []))
      && (r.lvl == 0 && !c.data.Null? && Length(t) != Length(c) ==> r == Fail(DimCount(Length(t), Length(c)), []))
      && (r.lvl == 0 && !c.data.Null? && Length(t) == Length(c) ==>
            (r.success <==>
               && (forall i | 0 <= i < |DimsOf(t)| :: DimsOf(t)[i] == 0 || DimsOf(t)[i] == DimsOf(c)[i])
               && host.alike(t, c, cfg).success))
  {
    if !(DimLike(t) && DimLike(c)) then AlikeAttr(host, t, c, "dim", cfg)
    else
      var (tarKind, curKind) := ImplicitClassError(host, t, c, tObj, cObj);
      if tarKind != "" then Res(false, ImplicitClass(tarKind, curKind), [], false, 1)
      else if c.data.Null? then Fail(HaveDim, [])
      else if Length(t) != Length(c) then Fail(DimCount(Length(t), Length(c)), [])
      else
        var tar, cur := DimsOf(t), DimsOf(c);
        var i := FirstDimMismatch(tar, cur, 0);
        if i < |tar| then Fail(DimSize(tar[i], cur[i], AxisOf(|tar|, i)), [])
        else AlikeAttr(host, t, c, "dim", cfg)
  }

  /** The first nonzero target dimension that differs is reported with both sizes, as rows or columns of a matrix, else by position. */
  lemma DimMismatchReported(host: Host, t: Value, c: Value, tObj: Value, cObj: Value, cfg: Settings, i: nat)
    requires t.data.Ints? && c.data.Ints? && |t.data.ints| == |c.data.ints|
    requires ImplicitClassError(host, t, c, tObj, cObj).0 == ""
    requires i < |t.data.ints| && t.data.ints[i] != 0 && t.data.ints[i] != c.data.ints[i]
    requires forall j | 0 <= j < i :: t.data.ints[j] == 0 || t.data.ints[j] == c.data.ints[j]
    ensures CompareDims(host, t, c, tObj, cObj, cfg) ==
      Fail(DimSize(t.data.ints[i], c.data.ints[i], AxisOf(|t.data.ints|, i)), [])
  {
    var m := FirstDimMismatch(t.data.ints, c.data.ints, 0);
    assert m == i;
  }

  // ---------------------------------------------------------------- names, row.names, levels

  /** `ALIKEC_are_special_char_attrs_internal`: same type, character or integer, same length. */
  predicate AreSpecialCharAttrs(t: Value, c: Value)
  {
    TypeOf(t) == TypeOf(c) && TypeOf(t) in {StrSxp, IntSxp} && Length(t) == Length(c)
  }

  /** Whether target name `tn` accepts current name `cn`: equal, or `tn` empty outside strict mode. */
  predicate NameMatches(tn: string, cn: string, strict: bool)
  {
    tn == cn || (!strict && tn == "")
  }

  /** The first `i` from `from` on where the names do not match, or `|tar|`. */
  function FirstNameMismatch(tar: seq<string>, cur: seq<string>, strict: bool, from: nat): (i: nat)
    requires |tar| == |cur| && from <= |tar|
    ensures from <= i <= |tar|
    ensures forall j | from <= j < i :: NameMatches(tar[j], cur[j], strict)
    ensures i < |tar| ==> !NameMatches(tar[i], cur[i], strict)
    decreases |tar| - from
  {
    if from == |tar| then from
    else if (strict || tar[from] != "") && tar[from] != cur[from] then from
    else FirstNameMismatch(tar, cur, strict, from + 1)
  }

  /** `` `[`(■, pos) ``. */
  function IndexWrap(pos: int): Expr
  {
    Call("[", [Hole, Num(pos)])
  }

  /**
   `ALIKEC_compare_special_char_attrs_internal`: the values must first be
   alike, and the failure of that comparison is passed on as is. A
   zero-length target then matches anything; integer values must be
   identical; character values must match name by name, where an empty target
   name matches any name unless `strict`.
   */
  function CompareCharAttrs(host: Host, t: Value, c: Value, cfg: Settings, strict: bool): (r: Result<Res, Fault>)
    ensures !host.alike(t, c, cfg).success ==> r == Ok(host.alike(t, c, cfg))
    ensures r.Err? <==>
      host.alike(t, c, cfg).success &&
      (TypeOf(t) != TypeOf(c) ||
       (Length(t) != 0 && (Length(c) != Length(t) || !(t.data.Ints? || t.data.Strs?))))
    ensures host.alike(t, c, cfg).success && TypeOf(t) == TypeOf(c) && Length(t) == 0 ==> r == Ok(Init)
    ensures r.Ok? && host.alike(t, c, cfg).success && t.data.Ints? ==>
      (r.value.success <==> Length(t) == 0 || host.identical(t, c))
    ensures r.Ok? && host.alike(t, c, cfg).success && t.data.Strs? ==>
      (r.value.success <==>
         host.identical(t, c) ||
         forall i | 0 <= i < |t.data.strs| :: NameMatches(t.data.strs[i], c.data.strs[i], strict))
  {
    var a := host.alike(t, c, cfg);
    if !a.success then Ok(a)
    else if TypeOf(t) != TypeOf(c) then Err(TypesDiffer)
    else if Length(t) == 0 then Ok(Init)
    else if Length(c) != Length(t) then Err(LengthsDiffer)
    else if t.data.Ints? then
      Ok(if host.identical(t, c) then Init else Fail(IdenticalToTarget, []))
    else if t.data.Strs? then
      if host.identical(t, c) then Ok(Init)
      else
        var tar, cur := t.data.strs, c.data.strs;
        var i := FirstNameMismatch(tar, cur, strict, 0);
        Ok(if i < |tar| then Fail(Quoted(tar[i], cur[i]), [IndexWrap(i + 1)]) else Init)
    else Err(NotCharAttr)
  }

  /** The first name that does not match is reported with both names, located at `[i]`, its 1-based position. */
  lemma NameMismatchReported(host: Host, t: Value, c: Value, cfg: Settings, strict: bool, i: nat, x: Expr)
    requires host.alike(t, c, cfg).success && !host.identical(t, c)
    requires t.data.Strs? && c.data.Strs? && |t.data.strs| == |c.data.strs|
    requires i < |t.data.strs| && !NameMatches(t.data.strs[i], c.data.strs[i], strict)
    requires forall j | 0 <= j < i :: NameMatches(t.data.strs[j], c.data.strs[j], strict)
    ensures CompareCharAttrs(host, t, c, cfg, strict).Ok?
    ensures var r := CompareCharAttrs(host, t, c, cfg, strict).value;
      && r == Fail(Quoted(t.data.strs[i], c.data.strs[i]), [IndexWrap(i + 1)])
      && Render(r.wrap, x) == Call("[", [x, Num(i + 1)])
  {
    var m := FirstNameMismatch(t.data.strs, c.data.strs, strict, 0);
    assert m == i;
    PlugCall2("[", Hole, Num(i + 1), x);
  }

  /**
   `ALIKEC_compare_levels`: character levels are compared as names, the
   failure located inside `levels()`; other levels go to the generic rule.
   */
  function CompareLevels(host: Host, t: Value, c: Value, cfg: Settings): (r: Result<Res, Fault>)
    ensures !(t.data.Strs? && c.data.Strs?) ==> r == Ok(AlikeAttr(host, t, c, "levels", cfg))
    ensures t.data.Strs? && c.data.Strs? ==>
      var s := CompareCharAttrs(host, t, c, cfg, false);
      && (r.Ok? <==> s.Ok?)
      && (r.Ok? ==> r.value.success == s.value.success && r.value.msg == s.value.msg)
  {
    if t.data.Strs? && c.data.Strs? then
      var s :- CompareCharAttrs(host, t, c, cfg, false);
      Ok(if s.success then s else s.(wrap := WrapAround(s.wrap, "levels")))
    else Ok(AlikeAttr(host, t, c, "levels", cfg))
  }

  /** A mismatch between character levels is located inside `levels()`. */
  lemma LevelsMismatchReported(host: Host, t: Value, c: Value, cfg: Settings, x: Expr)
    requires t.data.Strs? && c.data.Strs?
    requires CompareLevels(host, t, c, cfg).Ok? && !CompareLevels(host, t, c, cfg).value.success
    ensures var s := CompareCharAttrs(host, t, c, cfg, false).value;
      Render(CompareLevels(host, t, c, cfg).value.wrap, x) == Render(s.wrap, Call("levels", [x]))
  {
    var s := CompareCharAttrs(host, t, c, cfg, false).value;
    RenderWrapAround(s.wrap, "levels", x);
  }

  // ---------------------------------------------------------------- tsp

  /** The first `i` from `from` on where target's nonzero value differs from current's, or `|tar|`. */
  function FirstTsMismatch(tar: seq<real>, cur: seq<real>, from: nat): (i: nat)
    requires |tar| == |cur| && from <= |tar|
    ensures from <= i <= |tar|
    ensures forall j | from <= j < i :: tar[j] == 0.0 || tar[j] == cur[j]
    ensures i < |tar| ==> tar[i] != 0.0 && tar[i] != cur[i]
    decreases |tar| - from
  {
    if from == |tar| then from
    else if tar[from] != 0.0 && tar[from] != cur[from] then from
    else FirstTsMismatch(tar, cur, from + 1)
  }

  /** Both values are time-series parameters: double vectors of length 3. */
  predicate TspShaped(t: Value, c: Value)
  {
    t.data.Reals? && c.data.Reals? && |t.data.reals| == 3 && |c.data.reals| == 3
  }

  /**
   `ALIKEC_compare_ts`: start, end and frequency are compared slot by slot,
   a zero in target matching anything; the first difference is located at
   `tsp(■)[i]`. Other shapes go to the generic rule.
   */
  function CompareTs(host: Host, t: Value, c: Value, cfg: Settings): (r: Res)
    ensures !TspShaped(t, c) ==> r == AlikeAttr(host, t, c, "tsp", cfg)
    ensures TspShaped(t, c) ==> (r.success <==> FirstTsMismatch(t.data.reals, c.data.reals, 0) == 3)
    ensures TspShaped(t, c) && !r.success ==>
      var i := FirstTsMismatch(t.data.reals, c.data.reals, 0);
      r.msg == TsValue(t.data.reals[i], c.data.reals[i]) && r.wrap == [TspElement(i)]
  {
    if TspShaped(t, c) then
      var tar, cur := t.data.reals, c.data.reals;
      var i := FirstTsMismatch(tar, cur, 0);
      if i < 3 then Fail(TsValue(tar[i], cur[i]), [TspElement(i)])
      else Init
    else AlikeAttr(host, t, c, "tsp", cfg)
  }

  /** Time-series parameters match when each of target's is zero or equal to current's. */
  lemma TsAgree(host: Host, t: Value, c: Value, cfg: Settings)
    requires TspShaped(t, c)
    ensures CompareTs(host, t, c, cfg).success
        <==> forall i | 0 <= i < 3 :: t.data.reals[i] == 0.0 || t.data.reals[i] == c.data.reals[i]
  {
  }

  /** The frame `tsp(■)[i + 1]`. */
  function TspElement(i: nat): Expr
  {
    Call("[", [Accessor("tsp"), Num(i + 1)])
  }

  /** The wrap of a tsp mismatch at parameter `i` (0-based) renders as `tsp(x)[i + 1]`. */
  lemma RenderTspElement(w: Wrap, i: nat, x: Expr)
    requires w == [TspElement(i)]
    ensures Render(w, x) == Call("[", [Call("tsp", [x]), Num(i + 1)])
  {
    RenderSingle(TspElement(i), x);
    PlugCall2("[", Accessor("tsp"), Num(i + 1), x);
    PlugAccessor("tsp", x);
  }

  // ---------------------------------------------------------------- other attributes

  /** Reference objects: their identity cannot be compared, so a matching type is enough. */
  predicate IsReference(v: Value)
  {
    TypeOf(v) in {ExtPtrSxp, WeakRefSxp, BCodeSxp, EnvSxp}
  }

  /** The cases where the generic rule does not look at the values. */
  predicate SimpleExempt(t: Value, c: Value, cfg: Settings)
  {
    || (cfg.attrMode == 0 && Length(t) == 0)
    || (t.data.Null? && c.data.Null?)
    || (cfg.attrMode != 0 && IsReference(t))
  }

  /**
   `ALIKEC_compare_attributes_internal_simple`: the generic rule. Outside the
   exempt cases both values must be present, of one type and one length, and
   alike.
   */
  function CompareSimple(host: Host, t: Value, c: Value, tag: string, cfg: Settings): (r: Res)
    ensures SimpleExempt(t, c, cfg) ==> r == Init
    ensures !SimpleExempt(t, c, cfg) ==>
      (r.success <==>
         && !t.data.Null? && !c.data.Null?
         && TypeOf(t) == TypeOf(c) && Length(t) == Length(c)
         && host.alike(t, c, cfg).success)
    ensures !SimpleExempt(t, c, cfg) && t.data.Null? ==> r == Fail(NotHaveAttr(tag), [])
    ensures !SimpleExempt(t, c, cfg) && !t.data.Null? && c.data.Null? ==> r == Fail(HaveAttr(tag), [])
    ensures r.lvl == 0 && !r.df
  {
    if SimpleExempt(t, c, cfg) then Init
    else if t.data.Null? || c.data.Null? then
      Fail(if t.data.Null? then NotHaveAttr(tag) else HaveAttr(tag), [])
    else if TypeOf(t) != TypeOf(c) then
      Fail(TypeMismatch(TypeOf(t), TypeOf(c)), [AttrWrap(tag)])
    else if Length(t) != Length(c) then
      if cfg.attrMode != 0 || Length(t) != 0 then
        Fail(LengthMismatch(Length(t), Length(c)), [Call("length", [AttrWrap(tag)])])
      else Init
    else AlikeAttr(host, t, c, tag, cfg)
  }

  /** A length mismatch is located at `length(tag(■))`, or `length(attr(■, "tag"))` for a tag without accessor. */
  lemma SimpleLengthReported(host: Host, t: Value, c: Value, tag: string, cfg: Settings, x: Expr)
    requires !SimpleExempt(t, c, cfg) && !t.data.Null? && !c.data.Null?
    requires TypeOf(t) == TypeOf(c) && Length(t) != Length(c)
    ensures CompareSimple(host, t, c, tag, cfg).msg == LengthMismatch(Length(t), Length(c))
    ensures HasAccessor(tag) ==>
      Render(CompareSimple(host, t, c, tag, cfg).wrap, x) == Call("length", [Call(tag, [x])])
    ensures !HasAccessor(tag) ==>
      Render(CompareSimple(host, t, c, tag, cfg).wrap, x) == Call("length", [Call("attr", [x, Text(tag)])])
  {
    PlugCall1("length", AttrWrap(tag), x);
    PlugAttrWrap(tag, x);
  }

  /** A type mismatch is located at the attribute, `tag(■)` or `attr(■, "tag")`. */
  lemma SimpleTypeReported(host: Host, t: Value, c: Value, tag: string, cfg: Settings, x: Expr)
    requires !SimpleExempt(t, c, cfg) && !t.data.Null? && !c.data.Null? && TypeOf(t) != TypeOf(c)
    ensures CompareSimple(host, t, c, tag, cfg).msg == TypeMismatch(TypeOf(t), TypeOf(c))
    ensures HasAccessor(tag) ==> Render(CompareSimple(host, t, c, tag, cfg).wrap, x) == Call(tag, [x])
    ensures !HasAccessor(tag) ==> Render(CompareSimple(host, t, c, tag, cfg).wrap, x) == Call("attr", [x, Text(tag)])
  {
    PlugAttrWrap(tag, x);
  }
}

=== FILE: dimnames.dfy ===
/**
 `ALIKEC_compare_dimnames` of src/attr.c: the comparison of two `dimnames`
 attributes. A standard dimnames attribute is a list, optionally named, with
 one character vector (or `NULL`) per dimension. Its own attributes other
 than `names` must be present in current and alike, its names must match as
 names do, and each non-`NULL` component must match current's as names do.
 Anything else is compared with the recursive `alike`.
 */
module Dimnames {
  import opened RValues
  import opened Wraps
  import opened AlikeResults
  import opened Outcomes
  import opened AttrRules

  /** Both dimnames are lists, their names could be names, and a non-empty target has current's length. */
  predicate Standard(prim: Value, sec: Value)
  {
    var pn, sn := GetAttrib(prim, "names"), GetAttrib(sec, "names");
    && prim.data.List? && sec.data.List?
    && (pn.data.Null? || AreSpecialCharAttrs(pn, sn))
    && (Length(prim) == 0 || Length(prim) == Length(sec))
  }

  /**
   The frame an error inside a dimnames attribute is located with,
   `attr(dimnames(■), "tag")`. As written, the frame's hole is the cell that
   holds the tag, so the object lands where the tag should be and
   `dimnames()` keeps `NULL` as its argument.
   */
  function AttrFrame(policy: Policy, tag: string): Expr
  {
    if policy == Corrected then Call("attr", [Accessor("dimnames"), Text(tag)])
    else Call("attr", [Call("dimnames", [Nil]), Hole])
  }

  /** Filling the frame: corrected, the object goes inside `dimnames()`; as written, in place of the tag. */
  lemma PlugAttrFrame(policy: Policy, tag: string, x: Expr)
    ensures policy == Corrected ==> Plug(AttrFrame(policy, tag), x) == Call("attr", [Call("dimnames", [x]), Text(tag)])
    ensures policy == AsWritten ==> Plug(AttrFrame(policy, tag), x) == Call("attr", [Call("dimnames", [Nil]), x])
  {
    if policy == Corrected {
      PlugCall2("attr", Accessor("dimnames"), Text(tag), x);
      PlugAccessor("dimnames", x);
    } else {
      PlugCall2("attr", Call("dimnames", [Nil]), Hole, x);
      PlugCall1("dimnames", Nil, x);
    }
  }

  /** An attribute of target's dimnames is fine: it is `names`, or current has it and the values are alike. */
  predicate AttrAgrees(host: Host, a: Attr, sa: seq<Attr>, cfg: Settings)
  {
    a.tag == "names" ||
    (Find(sa, a.tag) >= 0 && host.alike(a.value, sa[Find(sa, a.tag)].value, cfg).success)
  }

  /**
   The loop over the attributes of target's dimnames from position `i` on,
   `res` the result so far. A failing comparison stops the loop. A missing
   attribute stops it only when corrected; as written the loop goes on, and
   the next attribute found alike replaces the failure with its success.
   */
  function CompareAttrs(host: Host, pa: seq<Attr>, sa: seq<Attr>, cfg: Settings, policy: Policy, i: nat, res: Res): (r: Result<Res, Fault>)
    requires i <= |pa|
    decreases |pa| - i
  {
    if i == |pa| then Ok(res)
    else if pa[i].tag == "names" then CompareAttrs(host, pa, sa, cfg, policy, i + 1, res)
    else
      var k := Find(sa, pa[i].tag);
      if k >= 0 then
        var a := host.alike(pa[i].value, sa[k].value, cfg);
        if a.success then CompareAttrs(host, pa, sa, cfg, policy, i + 1, a)
        else if a.wrap == [] then Err(NoHoleToFill)
        else Ok(a.(wrap := Nest(a.wrap, AttrFrame(policy, pa[i].tag))))
      else
        var missing := Fail(NotBeMissing, [AttrFrame(policy, pa[i].tag)]);
        if policy == Corrected then Ok(missing)
        else CompareAttrs(host, pa, sa, cfg, policy, i + 1, missing)
  }

  /** Corrected, the loop succeeds exactly when every remaining attribute agrees. */
  lemma {:induction false} CompareAttrsAgree(host: Host, pa: seq<Attr>, sa: seq<Attr>, cfg: Settings, i: nat, res: Res)
    requires i <= |pa| && res.success
    ensures var r := CompareAttrs(host, pa, sa, cfg, Corrected, i, res);
      (r.Ok? && r.value.success) <==> forall j | i <= j < |pa| :: AttrAgrees(host, pa[j], sa, cfg)
    decreases |pa| - i
  {
    if i < |pa| {
      if pa[i].tag == "names" {
        CompareAttrsAgree(host, pa, sa, cfg, i + 1, res);
      } else if Find(sa, pa[i].tag) >= 0 {
        var a := host.alike(pa[i].value, sa[Find(sa, pa[i].tag)].value, cfg);
        if a.success {
          CompareAttrsAgree(host, pa, sa, cfg, i + 1, a);
        }
      }
    }
  }

  /** The result the loop carries past an attribute of target's dimnames that agrees. */
  function Carried(host: Host, a: Attr, sa: seq<Attr>, cfg: Settings, res: Res): Res
    requires AttrAgrees(host, a, sa, cfg)
  {
    if a.tag == "names" then res else host.alike(a.value, sa[Find(sa, a.tag)].value, cfg)
  }

  /** Every attribute of target's dimnames from `i` up to `m` agrees. */
  predicate AttrsAgree(host: Host, pa: seq<Attr>, sa: seq<Attr>, cfg: Settings, i: nat, m: nat)
    requires i <= m <= |pa|
    decreases m - i
  {
    i == m || (AttrAgrees(host, pa[i], sa, cfg) && AttrsAgree(host, pa, sa, cfg, i + 1, m))
  }

  /** `AttrsAgree` says of each attribute in the range that it agrees. */
  lemma {:induction false} AttrsAgreeEach(host: Host, pa: seq<Attr>, sa: seq<Attr>, cfg: Settings, i: nat, m: nat)
    requires i <= m <= |pa|
    requires forall j | i <= j < m :: AttrAgrees(host, pa[j], sa, cfg)
    ensures AttrsAgree(host, pa, sa, cfg, i, m)
    decreases m - i
  {
    if i < m {
      AttrsAgreeEach(host, pa, sa, cfg, i + 1, m);
    }
  }

  /** The corrected loop's answer to a missing attribute `tag`. */
  function MissingResult(tag: string): Result<Res, Fault>
  {
    Ok(Fail(NotBeMissing, [AttrFrame(Corrected, tag)]))
  }

  /** Corrected, a missing attribute ends the loop. */
  lemma MissingAttrHere(host: Host, pa: seq<Attr>, sa: seq<Attr>, cfg: Settings, i: nat, res: Res)
    requires i < |pa| && pa[i].tag != "names" && Find(sa, pa[i].tag) == -1
    ensures CompareAttrs(host, pa, sa, cfg, Corrected, i, res) == MissingResult(pa[i].tag)
  {
  }

  /** Corrected, an attribute that agrees passes the loop on to the next one. */
  lemma AgreeingAttrPasses(host: Host, pa: seq<Attr>, sa: seq<Attr>, cfg: Settings, i: nat, res: Res)
    requires i < |pa| && AttrAgrees(host, pa[i], sa, cfg)
    ensures CompareAttrs(host, pa, sa, cfg, Corrected, i, res) ==
      CompareAttrs(host, pa, sa, cfg, Corrected, i + 1, Carried(host, pa[i], sa, cfg, res))
  {
  }

  /**
   Corrected, the first attribute of target's dimnames that current lacks,
   every one before it agreeing, ends the loop.
   */
  lemma {:induction false} MissingAttrStops(host: Host, pa: seq<Attr>, sa: seq<Attr>, cfg: Settings, i: nat, res: Res, m: nat)
    requires i <= m < |pa|
    requires AttrsAgree(host, pa, sa, cfg, i, m)
    requires pa[m].tag != "names" && Find(sa, pa[m].tag) == -1
    ensures CompareAttrs(host, pa, sa, cfg, Corrected, i, res) == MissingResult(pa[m].tag)
    decreases m - i, 1
  {
    if i == m {
      MissingAttrHere(host, pa, sa, cfg, i, res);
    } else {
      AgreeingAttrsPass(host, pa, sa, cfg, i, res, m);
    }
  }

  /** The step of `MissingAttrStops`: an agreeing attribute in front of the missing one changes nothing. */
  lemma {:induction false} AgreeingAttrsPass(host: Host, pa: seq<Attr>, sa: seq<Attr>, cfg: Settings, i: nat, res: Res, m: nat)
    requires i < m < |pa|
    requires AttrsAgree(host, pa, sa, cfg, i, m)
    requires pa[m].tag != "names" && Find(sa, pa[m].tag) == -1
    ensures CompareAttrs(host, pa, sa, cfg, Corrected, i, res) == MissingResult(pa[m].tag)
    decreases m - i, 0
  {
    AgreeingAttrPasses(host, pa, sa, cfg, i, res);
    MissingAttrStops(host, pa, sa, cfg, i + 1, Carried(host, pa[i], sa, cfg, res), m);
  }

  /** The missing attribute is reported as "not be missing" at `attr(dimnames(■), "tag")`. */
  lemma MissingAttrReported(host: Host, pa: seq<Attr>, sa: seq<Attr>, cfg: Settings, m: nat, x: Expr)
    requires m < |pa|
    requires forall j | 0 <= j < m :: AttrAgrees(host, pa[j], sa, cfg)
    requires pa[m].tag != "names" && Find(sa, pa[m].tag) == -1
    ensures var r := CompareAttrs(host, pa, sa, cfg, Corrected, 0, Init);
      && r.Ok? && r.value.msg == NotBeMissing && !r.value.success
      && Render(r.value.wrap, x) == Call("attr", [Call("dimnames", [x]), Text(pa[m].tag)])
  {
    AttrsAgreeEach(host, pa, sa, cfg, 0, m);
    MissingAttrStops(host, pa, sa, cfg, 0, Init, m);
    PlugAttrFrame(Corrected, pa[m].tag, x);
  }

  /** Two character attributes compared as names do, with no internal error and no mismatch. */
  predicate NamesAgree(host: Host, t: Value, c: Value, cfg: Settings)
  {
    CompareCharAttrs(host, t, c, cfg, false).Ok? && CompareCharAttrs(host, t, c, cfg, false).value.success
  }

  /** The frame `names(dimnames(■))`. */
  function NamesFrame(): Expr
  {
    Call("names", [Accessor("dimnames")])
  }

  /** The names of the two dimnames, compared as names; a failure is located inside `names(dimnames())`. */
  function CompareNames(host: Host, pn: Value, sn: Value, cfg: Settings): (r: Result<Res, Fault>)
    ensures (r.Ok? && r.value.success) <==> NamesAgree(host, pn, sn, cfg)
    ensures r.Ok? && !r.value.success ==>
      CompareCharAttrs(host, pn, sn, cfg, false).Ok? && r.value.msg == CompareCharAttrs(host, pn, sn, cfg, false).value.msg
  {
    var c :- CompareCharAttrs(host, pn, sn, cfg, false);
    if c.success then Ok(c)
    else if c.wrap == [] then Err(NoNamesWrap)
    else Ok(c.(wrap := Nest(c.wrap, NamesFrame())))
  }

  /** A names mismatch is located at `names(dimnames(■))`, inside the location the names comparison gave. */
  lemma NamesMismatchReported(host: Host, pn: Value, sn: Value, cfg: Settings, x: Expr)
    requires CompareNames(host, pn, sn, cfg).Ok? && !CompareNames(host, pn, sn, cfg).value.success
    ensures var s := CompareCharAttrs(host, pn, sn, cfg, false).value;
      Render(CompareNames(host, pn, sn, cfg).value.wrap, x) == Render(s.wrap, Call("names", [Call("dimnames", [x])]))
  {
    var s := CompareCharAttrs(host, pn, sn, cfg, false).value;
    RenderNest(s.wrap, NamesFrame(), x);
    PlugCall1("names", Accessor("dimnames"), x);
    PlugAccessor("dimnames", x);
  }

  /** The frame locating component `i` of `n` dimnames: `row.names(■)` and `colnames(■)` for a matrix, else `dimnames(■)[[i + 1]]`. */
  function AxisFrame(n: nat, i: nat): Expr
  {
    if n == 2 then Accessor(if i == 0 then "row.names" else "colnames")
    else Call("[[", [Accessor("dimnames"), Num(i + 1)])
  }

  /** Filling an axis frame. */
  lemma PlugAxisFrame(n: nat, i: nat, x: Expr)
    ensures n == 2 && i == 0 ==> Plug(AxisFrame(n, i), x) == Call("row.names", [x])
    ensures n == 2 && i != 0 ==> Plug(AxisFrame(n, i), x) == Call("colnames", [x])
    ensures n != 2 ==> Plug(AxisFrame(n, i), x) == Call("[[", [Call("dimnames", [x]), Num(i + 1)])
  {
    if n == 2 {
      PlugAccessor(if i == 0 then "row.names" else "colnames", x);
    } else {
      PlugCall2("[[", Accessor("dimnames"), Num(i + 1), x);
      PlugAccessor("dimnames", x);
    }
  }

  /**
   The components of the two dimnames from `i` on, compared as names
   wherever target's is not `NULL`; the first failure is located at its axis.
   */
  function CompareComponents(host: Host, pe: seq<Value>, se: seq<Value>, cfg: Settings, i: nat, res: Res): (r: Result<Res, Fault>)
    requires |pe| == |se| && i <= |pe|
    decreases |pe| - i
  {
    if i == |pe| then Ok(res)
    else if pe[i].data.Null? then CompareComponents(host, pe, se, cfg, i + 1, res)
    else
      var c :- CompareCharAttrs(host, pe[i], se[i], cfg, false);
      if c.success then CompareComponents(host, pe, se, cfg, i + 1, c)
      else Ok(c.(wrap := Nest(c.wrap, AxisFrame(|pe|, i))))
  }

  /** The loop succeeds exactly when every remaining non-`NULL` component of target agrees with current's. */
  lemma {:induction false} CompareComponentsAgree(host: Host, pe: seq<Value>, se: seq<Value>, cfg: Settings, i: nat, res: Res)
    requires |pe| == |se| && i <= |pe| && res.success
    ensures var r := CompareComponents(host, pe, se, cfg, i, res);
      (r.Ok? && r.value.success) <==> forall j | i <= j < |pe| :: pe[j].data.Null? || NamesAgree(host, pe[j], se[j], cfg)
    decreases |pe| - i
  {
    if i < |pe| {
      if pe[i].data.Null? {
        CompareComponentsAgree(host, pe, se, cfg, i + 1, res);
      } else if NamesAgree(host, pe[i], se[i], cfg) {
        CompareComponentsAgree(host, pe, se, cfg, i + 1, CompareCharAttrs(host, pe[i], se[i], cfg, false).value);
      }
    }
  }

  /** The first component that does not match as names do ends the loop, located at its axis. */
  lemma {:induction false} ComponentMismatchStops(host: Host, pe: seq<Value>, se: seq<Value>, cfg: Settings, i: nat, res: Res, m: nat)
    requires |pe| == |se| && i <= m < |pe|
    requires forall j | i <= j < m :: pe[j].data.Null? || NamesAgree(host, pe[j], se[j], cfg)
    requires !pe[m].data.Null? && CompareCharAttrs(host, pe[m], se[m], cfg, false).Ok?
    requires !CompareCharAttrs(host, pe[m], se[m], cfg, false).value.success
    ensures var s := CompareCharAttrs(host, pe[m], se[m], cfg, false).value;
      CompareComponents(host, pe, se, cfg, i, res) == Ok(s.(wrap := Nest(s.wrap, AxisFrame(|pe|, m))))
    decreases m - i
  {
    if i == m {
      assert !pe[i].data.Null?;
    } else if pe[i].data.Null? {
      ComponentMismatchStops(host, pe, se, cfg, i + 1, res, m);
    } else {
      assert NamesAgree(host, pe[i], se[i], cfg);
      var next := CompareCharAttrs(host, pe[i], se[i], cfg, false).value;
      ComponentMismatchStops(host, pe, se, cfg, i + 1, next, m);
    }
  }

  /** The mismatch is reported with its own message, its location put inside the axis frame. */
  lemma ComponentMismatchReported(host: Host, pe: seq<Value>, se: seq<Value>, cfg: Settings, m: nat, x: Expr)
    requires |pe| == |se| && m < |pe|
    requires forall j | 0 <= j < m :: pe[j].data.Null? || NamesAgree(host, pe[j], se[j], cfg)
    requires !pe[m].data.Null? && CompareCharAttrs(host, pe[m], se[m], cfg, false).Ok?
    requires !CompareCharAttrs(host, pe[m], se[m], cfg, false).value.success
    ensures var s := CompareCharAttrs(host, pe[m], se[m], cfg, false).value;
      var r := CompareComponents(host, pe, se, cfg, 0, Init);
      && r.Ok? && !r.value.success && r.value.msg == s.msg
      && Render(r.value.wrap, x) == Render(s.wrap, Plug(AxisFrame(|pe|, m), x))
  {
    var s := CompareCharAttrs(host, pe[m], se[m], cfg, false).value;
    ComponentMismatchStops(host, pe, se, cfg, 0, Init, m);
    RenderNest(s.wrap, AxisFrame(|pe|, m), x);
  }

  /** Everything a standard comparison checks agrees. */
  predicate Agree(host: Host, prim: Value, sec: Value, cfg: Settings)
    requires Standard(prim, sec)
  {
    var pn, sn := GetAttrib(prim, "names"), GetAttrib(sec, "names");
    && (forall j | 0 <= j < |prim.attrs| :: AttrAgrees(host, prim.attrs[j], sec.attrs, cfg))
    && (Length(prim) != 0 ==>
          && (pn.data.Null? || NamesAgree(host, pn, sn, cfg))
          && forall i | 0 <= i < |prim.data.elems| ::
               prim.data.elems[i].data.Null? || NamesAgree(host, prim.data.elems[i], sec.data.elems[i], cfg))
  }

  /** The comparison under either reading; `lvl` is always reset to 0. */
  function Compare(host: Host, prim: Value, sec: Value, cfg: Settings, policy: Policy): (r: Result<Res, Fault>)
    ensures sec.data.Null? ==> r == Ok(Fail(HaveDimnames, []))
    ensures r.Ok? ==> r.value.lvl == 0
    ensures !sec.data.Null? && !Standard(prim, sec) ==>
      var a := host.alike(prim, sec, cfg);
      && r.Ok? && (r.value.success <==> a.success)
      && (!a.success ==> r.value.msg == a.msg && r.value.wrap == WrapAround(a.wrap, "dimnames"))
  {
    if sec.data.Null? then Ok(Fail(HaveDimnames, []))
    else if !Standard(prim, sec) then
      var a := host.alike(prim, sec, cfg);
      Ok((if a.success then a else a.(wrap := WrapAround(a.wrap, "dimnames"))).(lvl := 0))
    else
      var res :- CompareAttrs(host, prim.attrs, sec.attrs, cfg, policy, 0, Init);
      if !res.success || Length(prim) == 0 then Ok(res.(lvl := 0))
      else
        var pn, sn := GetAttrib(prim, "names"), GetAttrib(sec, "names");
        var named :- if pn.data.Null? then Ok(res) else CompareNames(host, pn, sn, cfg);
        if !named.success then Ok(named.(lvl := 0))
        else
          var r :- CompareComponents(host, prim.data.elems, sec.data.elems, cfg, 0, named);
          Ok(r.(lvl := 0))
  }

  /**
   `ALIKEC_compare_dimnames` corrected: every attribute of target's dimnames
   other than `names` must be present in current, and located at
   `attr(dimnames(■), "tag")` when it is not.
   */
  function CompareDimnames(host: Host, prim: Value, sec: Value, cfg: Settings): (r: Result<Res, Fault>)
    ensures sec.data.Null? ==> r == Ok(Fail(HaveDimnames, []))
    ensures r.Ok? ==> r.value.lvl == 0
    ensures !sec.data.Null? && !Standard(prim, sec) ==>
      (r.Ok? && (r.value.success <==> host.alike(prim, sec, cfg).success))
  {
    Compare(host, prim, sec, cfg, Corrected)
  }

  /** A dimnames value that is not standard and not alike is reported at `dimnames(■)`, inside the location `alike` gave. */
  lemma NonstandardReported(host: Host, prim: Value, sec: Value, cfg: Settings, policy: Policy, x: Expr)
    requires !sec.data.Null? && !Standard(prim, sec) && !host.alike(prim, sec, cfg).success
    ensures Render(Compare(host, prim, sec, cfg, policy).value.wrap, x) == Render(host.alike(prim, sec, cfg).wrap, Call("dimnames", [x]))
  {
    RenderWrapAround(host.alike(prim, sec, cfg).wrap, "dimnames", x);
  }

  /** Corrected, a standard comparison succeeds exactly when everything it checks agrees. */
  lemma DimnamesAgree(host: Host, prim: Value, sec: Value, cfg: Settings)
    requires !sec.data.Null? && Standard(prim, sec)
    ensures var r := CompareDimnames(host, prim, sec, cfg);
      (r.Ok? && r.value.success) <==> Agree(host, prim, sec, cfg)
  {
    CompareAttrsAgree(host, prim.attrs, sec.attrs, cfg, 0, Init);
    var res := CompareAttrs(host, prim.attrs, sec.attrs, cfg, Corrected, 0, Init);
    if res.Ok? && res.value.success && Length(prim) != 0 {
      var pn, sn := GetAttrib(prim, "names"), GetAttrib(sec, "names");
      var named := if pn.data.Null? then Ok(res.value) else CompareNames(host, pn, sn, cfg);
      if named.Ok? && named.value.success {
        CompareComponentsAgree(host, prim.data.elems, sec.data.elems, cfg, 0, named.value);
      }
    }
  }

  /** `ALIKEC_compare_dimnames` as written. */
  function CompareDimnamesAsWritten(host: Host, prim: Value, sec: Value, cfg: Settings): (r: Result<Res, Fault>)
    ensures sec.data.Null? ==> r == Ok(Fail(HaveDimnames, []))
    ensures r.Ok? ==> r.value.lvl == 0
    ensures !sec.data.Null? && !Standard(prim, sec) ==> r == CompareDimnames(host, prim, sec, cfg)
  {
    Compare(host, prim, sec, cfg, AsWritten)
  }

  /** The dimnames `list()` carrying the given attributes. */
  function EmptyDimnames(attrs: seq<Attr>): Value
  {
    Value(List([]), attrs)
  }

  /**
   As written, an attribute of target's dimnames that current lacks is
   located at `attr(dimnames(NULL), obj)`: the tag is lost and the object is
   not inside `dimnames()`. Corrected, the location is
   `attr(dimnames(obj), "foo")`.
   */
  lemma MissingAttrFrameAsWritten(host: Host, cfg: Settings)
    ensures var prim := EmptyDimnames([Attr("foo", Value(Ints([1]), []))]);
      var sec := EmptyDimnames([]);
      var w := CompareDimnamesAsWritten(host, prim, sec, cfg);
      var c := CompareDimnames(host, prim, sec, cfg);
      && w.Ok? && !w.value.success && w.value.msg == NotBeMissing
      && Render(w.value.wrap, Sym("obj")) == Call("attr", [Call("dimnames", [Nil]), Sym("obj")])
      && c.Ok? && !c.value.success && c.value.msg == NotBeMissing
      && Render(c.value.wrap, Sym("obj")) == Call("attr", [Call("dimnames", [Sym("obj")]), Text("foo")])
  {
    PlugAttrFrame(AsWritten, "foo", Sym("obj"));
    PlugAttrFrame(Corrected, "foo", Sym("obj"));
  }

  /**
   As written, a missing attribute followed by one that is present and alike
   is forgotten: target's dimnames carry "foo" and "bar", current's only
   "bar", and the comparison succeeds. Corrected, it fails with "not be
   missing".
   */
  lemma MissingAttrForgottenAsWritten(host: Host, cfg: Settings)
    requires host.alike(Value(Ints([1]), []), Value(Ints([1]), []), cfg).success
    ensures var one := Value(Ints([1]), []);
      var prim := EmptyDimnames([Attr("foo", one), Attr("bar", one)]);
      var sec := EmptyDimnames([Attr("bar", one)]);
      && CompareDimnamesAsWritten(host, prim, sec, cfg).Ok?
      && CompareDimnamesAsWritten(host, prim, sec, cfg).value.success
      && CompareDimnames(host, prim, sec, cfg).Ok?
      && !CompareDimnames(host, prim, sec, cfg).value.success
      && CompareDimnames(host, prim, sec, cfg).value.msg == NotBeMissing
  {
    var one := Value(Ints([1]), []);
    var pa, sa := [Attr("foo", one), Attr("bar", one)], [Attr("bar", one)];
    assert Find(sa, "foo") == -1;
    assert Find(sa, "bar") == 0;
    assert GetAttrib(EmptyDimnames(pa), "names") == NULL;
    assert GetAttrib(EmptyDimnames(sa), "names") == NULL;
  }
}

=== FILE: outcomes.dfy ===
/**
 The failure-compatible result type used throughout the model. `Err` stands
 for a call to R's `error()`, which abandons the whole computation.
 */
module Outcomes {

  datatype Result<+T, +E> = Ok(value: T) | Err(error: E) {

    predicate IsFailure() {
      Err?
    }

    function PropagateFailure<U>(): Result<U, E>
      requires Err?
    {
      Err(error)
    }

    function Extract(): T
      requires Ok?
    {
      value
    }
  }
}

=== FILE: r_values.dfy ===
/**
 The R objects the attribute comparison looks at: a value with a type, a
 length and the pairlist of its attributes. Integer, double and character
 vectors, generic vectors (lists) and pairlists keep their contents; every
 other kind of object keeps only its type and length.
 */
module RValues {

  /** The `SEXPTYPE`s that make a difference in src/attr.c. */
  datatype SexpType =
    | NilSxp | SymSxp | ListSxp | CloSxp | EnvSxp | LangSxp
    | LglSxp | IntSxp | RealSxp | CplxSxp | StrSxp | VecSxp | RawSxp
    | ExtPtrSxp | WeakRefSxp | BCodeSxp | OtherSxp(typeName: string)

  /** The types of objects modelled by type and length alone. */
  type OpaqueType = t: SexpType | t !in {NilSxp, ListSxp, IntSxp, RealSxp, StrSxp, VecSxp}
    witness LglSxp

  datatype Value = Value(data: Data, attrs: seq<Attr>)

  datatype Data =
    | Null
    | Ints(ints: seq<int>)
    | Reals(reals: seq<real>)
    | Strs(strs: seq<string>)
    | List(elems: seq<Value>)
    | Pairlist(entries: seq<Attr>)
    | Opaque(kind: OpaqueType, len: nat)

  /** One attribute: its tag (an R symbol, compared by name) and its value. */
  datatype Attr = Attr(tag: string, value: Value)

  const NULL: Value := Value(Null, [])

  /** `type2char`: the name R prints for a type. */
  function TypeName(t: SexpType): string
  {
    match t
    case NilSxp => "NULL"
    case SymSxp => "symbol"
    case ListSxp => "pairlist"
    case CloSxp => "closure"
    case EnvSxp => "environment"
    case LangSxp => "language"
    case LglSxp => "logical"
    case IntSxp => "integer"
    case RealSxp => "double"
    case CplxSxp => "complex"
    case StrSxp => "character"
    case VecSxp => "list"
    case RawSxp => "raw"
    case ExtPtrSxp => "externalptr"
    case WeakRefSxp => "weakref"
    case BCodeSxp => "bytecode"
    case OtherSxp(name) => name
  }

  function TypeOf(v: Value): (t: SexpType)
    ensures t == NilSxp <==> v.data.Null?
    ensures t == IntSxp <==> v.data.Ints?
    ensures t == RealSxp <==> v.data.Reals?
    ensures t == StrSxp <==> v.data.Strs?
    ensures t == VecSxp <==> v.data.List?
  {
    match v.data
    case Null => NilSxp
    case Ints(_) => IntSxp
    case Reals(_) => RealSxp
    case Strs(_) => StrSxp
    case List(_) => VecSxp
    case Pairlist(_) => ListSxp
    case Opaque(kind, _) => kind
  }

  /** `xlength`: zero for `NULL`. */
  function Length(v: Value): (n: nat)
    ensures v.data.Null? ==> n == 0
  {
    match v.data
    case Null => 0
    case Ints(xs) => |xs|
    case Reals(xs) => |xs|
    case Strs(xs) => |xs|
    case List(xs) => |xs|
    case Pairlist(xs) => |xs|
    case Opaque(_, n) => n
  }

  /** R's `isVectorAtomic`: logical, integer, double, complex, character or raw. */
  predicate IsVectorAtomic(v: Value)
  {
    TypeOf(v) in {LglSxp, IntSxp, RealSxp, CplxSxp, StrSxp, RawSxp}
  }

  /** `ATTRIB(v)`: the attribute pairlist, or `NULL` when there are none. */
  function Attrib(v: Value): (a: Value)
    ensures a.data.Null? <==> v.attrs == []
    ensures a.data.Pairlist? ==> a.data.entries == v.attrs
  {
    if v.attrs == [] then NULL else Value(Pairlist(v.attrs), [])
  }

  /** The position of the first attribute tagged `tag`, or -1 when there is none. */
  function Find(attrs: seq<Attr>, tag: string): (k: int)
    ensures -1 <= k < |attrs|
    ensures k == -1 <==> forall i | 0 <= i < |attrs| :: attrs[i].tag != tag
    ensures k >= 0 ==> attrs[k].tag == tag && forall i | 0 <= i < k :: attrs[i].tag != tag
    decreases |attrs|
  {
    if attrs == [] then -1
    else if attrs[0].tag == tag then 0
    else
      var k := Find(attrs[1..], tag);
      if k == -1 then -1 else k + 1
  }

  /** The position of the last attribute tagged `tag`, or -1 when there is none. */
  function FindLast(attrs: seq<Attr>, tag: string): (k: int)
    ensures -1 <= k < |attrs|
    ensures k == -1 <==> forall i | 0 <= i < |attrs| :: attrs[i].tag != tag
    ensures k >= 0 ==> attrs[k].tag == tag && forall i | k < i < |attrs| :: attrs[i].tag != tag
    decreases |attrs|
  {
    if attrs == [] then -1
    else if attrs[|attrs| - 1].tag == tag then |attrs| - 1
    else FindLast(attrs[..|attrs| - 1], tag)
  }

  /** `getAttrib(v, tag)`: the value of the first attribute tagged `tag`, or `NULL`. */
  function GetAttrib(v: Value, tag: string): Value
  {
    var k := Find(v.attrs, tag);
    if k == -1 then NULL else v.attrs[k].value
  }

  /**
   The settings of a comparison that src/attr.c reads: the attribute mode
   (0 default, 1 checks every attribute, 2 also demands the same attribute
   set) and the depth of attribute nesting.
   */
  datatype Settings = Settings(attrMode: int, inAttr: nat)
}

=== FILE: strsub.dfy ===
/**
 Character counting (`CSR_nchar_u`) and truncation to a number of characters
 (`CSR_strsub`) over UTF-8 byte strings, as done in src/strsub.c, with the
 steps taken by `utf8_offset`.
 */
module StrSub {
  import opened Utf8
  import opened Outcomes

  /** The number of `utf8_offset` steps that consume `s` from byte `i` to its end. */
  function Count(s: seq<bv8>, i: nat): (n: nat)
    ensures i <= |s| ==> n <= |s| - i
    ensures i < |s| ==> n >= 1
    decreases |s| - i
  {
    if i >= |s| then 0 else 1 + Count(s, i + Offset(s, i))
  }

  /** The byte position reached from `i` after `n` characters, or the end if there are fewer. */
  function Advance(s: seq<bv8>, i: nat, n: nat): (e: nat)
    ensures i <= e
    ensures i <= |s| ==> e <= |s|
    decreases n
  {
    if n == 0 || i >= |s| then i else Advance(s, i + Offset(s, i), n - 1)
  }

  /** The split of `s` from byte `i` into its characters, one `utf8_offset` step each. */
  function Chars(s: seq<bv8>, i: nat): (cs: seq<seq<bv8>>)
    requires i <= |s|
    ensures |cs| == Count(s, i)
    ensures Flatten(cs) == s[i..]
    ensures forall k | 0 <= k < |cs| :: 1 <= |cs[k]| <= 4
    decreases |s| - i
  {
    if i == |s| then []
    else
      var o := Offset(s, i);
      var rest := Chars(s, i + o);
      assert s[i..] == s[i..i + o] + s[i + o..];
      [s[i..i + o]] + rest
  }

  function Flatten(cs: seq<seq<bv8>>): seq<bv8>
  {
    if cs == [] then [] else cs[0] + Flatten(cs[1..])
  }

  /** One more character: the step `utf8_offset` takes from where `n` characters ended. */
  lemma {:induction false} AdvanceSucc(s: seq<bv8>, i: nat, n: nat)
    ensures Advance(s, i, n + 1) ==
      var e := Advance(s, i, n); if e < |s| then e + Offset(s, e) else e
    decreases n
  {
    if n == 0 || i >= |s| {
    } else {
      AdvanceSucc(s, i + Offset(s, i), n - 1);
    }
  }

  /** After `n` of the `Count(s, i)` characters, `Count(s, i) - n` remain. */
  lemma {:induction false} CountAfterAdvance(s: seq<bv8>, i: nat, n: nat)
    requires i <= |s|
    requires n <= Count(s, i)
    ensures Count(s, Advance(s, i, n)) == Count(s, i) - n
    decreases n
  {
    if n == 0 {
    } else {
      CountAfterAdvance(s, i + Offset(s, i), n - 1);
    }
  }

  /** Fewer than `Count(s, i)` characters end strictly before the end of `s`. */
  lemma AdvanceBeforeEnd(s: seq<bv8>, i: nat, n: nat)
    requires i <= |s|
    ensures Advance(s, i, n) < |s| <==> n < Count(s, i)
  {
    if n <= Count(s, i) {
      CountAfterAdvance(s, i, n);
    } else {
      CountAfterAdvance(s, i, Count(s, i));
      AdvanceBeyondCount(s, i, Count(s, i), n);
    }
  }

  lemma {:induction false} AdvanceBeyondCount(s: seq<bv8>, i: nat, c: nat, n: nat)
    requires i <= |s|
    requires c <= n
    requires Advance(s, i, c) == |s|
    ensures Advance(s, i, n) == |s|
    decreases n
  {
    if c == 0 {
      AdvanceAtEnd(s, i, n);
    } else if i < |s| {
      AdvanceBeyondCount(s, i + Offset(s, i), c - 1, n - 1);
    }
  }

  lemma {:induction false} AdvanceAtEnd(s: seq<bv8>, i: nat, n: nat)
    requires i == |s|
    ensures Advance(s, i, n) == i
  {
  }

  /**
   A string that agrees with `s` on the first `n` characters from `i`, and has
   a byte below 0x80 (an ASCII byte or the terminator) where they end, splits
   into the same `n` characters there.
   */
  lemma {:induction false} CountOnAgreeingPrefix(s: seq<bv8>, t: seq<bv8>, i: nat, n: nat)
    requires i <= |s|
    requires n <= Count(s, i)
    requires Advance(s, i, n) <= |t|
    requires t[..Advance(s, i, n)] == s[..Advance(s, i, n)]
    requires ByteAt(t, Advance(s, i, n)) < 0x80
    ensures Count(t, i) == n + Count(t, Advance(s, i, n))
    decreases n
  {
    if n > 0 {
      var e := Advance(s, i, n);
      var o := Offset(s, i);
      assert e == Advance(s, i + o, n - 1);
      assert i + o <= e;
      OffsetAgrees(s, t, i, e);
      CountOnAgreeingPrefix(s, t, i + o, n - 1);
    }
  }

  /** The character at `i` ends no later than `e`, so `t` steps over it as `s` does. */
  lemma OffsetAgrees(s: seq<bv8>, t: seq<bv8>, i: nat, e: nat)
    requires i < |s| && e <= |s| && e <= |t|
    requires i + Offset(s, i) <= e
    requires t[..e] == s[..e]
    requires ByteAt(t, e) < 0x80
    ensures Offset(t, i) == Offset(s, i)
  {
    var o := Offset(s, i);
    var b0, b1, b2, b3 := ByteAt(s, i), ByteAt(s, i + 1), ByteAt(s, i + 2), ByteAt(s, i + 3);
    var c0, c1, c2, c3 := ByteAt(t, i), ByteAt(t, i + 1), ByteAt(t, i + 2), ByteAt(t, i + 3);
    AgreeBefore(s, t, e, i);
    if o >= 2 { AgreeBefore(s, t, e, i + 1); }
    if o >= 3 { AgreeBefore(s, t, e, i + 2); }
    if o == 4 { AgreeBefore(s, t, e, i + 3); }
    if i + o < e { AgreeBefore(s, t, e, i + o); }
    assert o == 1 ==> c1 == b1 || c1 < 0x80;
    assert o == 2 ==> c2 == b2 || c2 < 0x80;
    assert o == 3 ==> c3 == b3 || c3 < 0x80;
    OffsetOfStable(b0, b1, b2, b3, c0, c1, c2, c3);
  }

  lemma AgreeBefore(s: seq<bv8>, t: seq<bv8>, e: nat, j: nat)
    requires e <= |s| && e <= |t|
    requires t[..e] == s[..e]
    requires j < e
    ensures ByteAt(t, j) == ByteAt(s, j)
  {
    assert t[..e][j] == s[..e][j];
  }

  // ---------------------------------------------------------------------------
  // CSR_nchar_u

  /**
   `CSR_nchar_u` on one string: steps through `s` with `utf8_offset` until the
   terminator and returns the number of steps.
   */
  method NChar(s: CString) returns (n: nat)
    ensures n == Count(s, 0)
    ensures n <= |s|
  {
    var byteCount: nat := 0;
    n := 0;
    while ByteAt(s, byteCount) != 0
      invariant byteCount <= |s|
      invariant n + Count(s, byteCount) == Count(s, 0)
      decreases |s| - byteCount
    {
      byteCount := byteCount + Offset(s, byteCount);
      n := n + 1;
    }
  }

  /** On ASCII text every byte is a character. */
  lemma {:induction false} CountAscii(s: seq<bv8>, i: nat)
    requires i <= |s|
    requires forall k | i <= k < |s| :: s[k] < 0x80
    ensures Count(s, i) == |s| - i
    decreases |s| - i
  {
    if i < |s| {
      assert Offset(s, i) == 1;
      CountAscii(s, i + 1);
    }
  }

  // ---------------------------------------------------------------------------
  // CSR_strsub

  /** The `".."` appended to a truncated string when marking is on. */
  const Pad: seq<bv8> := [0x2E, 0x2E]

  datatype StrSubError =
    | CharsNotPositive      // `chars` must be strictly positive
    | CharsTooFewForMark    // `chars` must be greater than 2 when marking

  /**
   The truncation `CSR_strsub` performs on one string: unchanged when it has at
   most `chars` characters, otherwise its first `chars` characters, or its first
   `chars - 2` characters followed by `".."` when `mark` is set.
   */
  function Truncate(s: CString, chars: int, mark: bool): (r: Result<seq<bv8>, StrSubError>)
    ensures r.Err? <==> chars < 1 || (mark && chars < 3)
    ensures r.Ok? && !mark ==> r.value <= s
  {
    if chars < 1 then Err(CharsNotPositive)
    else if mark && chars < 3 then Err(CharsTooFewForMark)
    else if Count(s, 0) <= chars then Ok(s)
    else if mark then Ok(s[..Advance(s, 0, chars - 2)] + Pad)
    else Ok(s[..Advance(s, 0, chars)])
  }

  /**
   The truncated string has exactly `min(Count(s), chars)` characters: every
   character it keeps is stepped over exactly as in `s`, and a `".."` mark
   counts as two.
   */
  lemma TruncateCharCount(s: CString, chars: int, mark: bool)
    requires Truncate(s, chars, mark).Ok?
    ensures Count(Truncate(s, chars, mark).value, 0) ==
      if Count(s, 0) <= chars then Count(s, 0) else chars
  {
    var r := Truncate(s, chars, mark).value;
    if Count(s, 0) > chars {
      var n := if mark then chars - 2 else chars;
      var e := Advance(s, 0, n);
      AdvanceBeforeEnd(s, 0, n);
      assert r[..e] == s[..e];
      CountOnAgreeingPrefix(s, r, 0, n);
      if mark {
        assert r[e] == 0x2E && r[e + 1] == 0x2E && |r| == e + 2;
        assert Count(r, e + 2) == 0;
        assert Offset(r, e + 1) == 1;
        assert Count(r, e + 1) == 1;
        assert Offset(r, e) == 1;
      }
    }
  }

  /**
   `CSR_strsub` on one string: the C loop walks at most `chars` characters,
   remembering where the last two characters started, then keeps the bytes up
   to the cut and appends `".."` when marking.
   */
  method StrSub(s: CString, chars: int, mark: bool) returns (r: Result<seq<bv8>, StrSubError>)
    ensures r == Truncate(s, chars, mark)
    ensures r.Ok? && Count(s, 0) <= chars ==> r.value == s
    ensures r.Ok? && Count(s, 0) > chars && !mark ==> r.value == s[..Advance(s, 0, chars)]
    ensures r.Ok? && Count(s, 0) > chars && mark ==>
      && r.value == s[..Advance(s, 0, chars - 2)] + Pad
      && |r.value| <= Advance(s, 0, chars)
  {
    if chars < 1 {
      return Err(CharsNotPositive);
    }
    var padLen := 2;
    if chars - (if mark then padLen else 0) < 1 {
      return Err(CharsTooFewForMark);
    }
    var byteCount: nat := 0;
    var charCount: nat := 0;
    var prev: nat := 0;
    var prevPrev: nat := 0;
    while ByteAt(s, byteCount) != 0 && charCount < chars
      invariant charCount <= chars
      invariant byteCount == Advance(s, 0, charCount) <= |s|
      invariant charCount >= 2 ==> prev == Advance(s, 0, charCount - 1)
      invariant charCount >= 3 ==> prevPrev == Advance(s, 0, charCount - 2)
      decreases |s| - byteCount
    {
      if charCount > 1 {
        prevPrev := prev;
      }
      if charCount > 0 {
        prev := byteCount;
      }
      AdvanceSucc(s, 0, charCount);
      charCount := charCount + 1;
      byteCount := byteCount + Offset(s, byteCount);
    }
    AdvanceBeforeEnd(s, 0, charCount);
    if charCount >= chars && ByteAt(s, byteCount) != 0 {
      if mark {
        MarkFits(s, chars);
        r := Ok(s[..prevPrev] + Pad);
      } else {
        r := Ok(s[..byteCount]);
      }
    } else {
      r := Ok(s);
    }
  }

  /** The marked result fits the `byte_count + 1` buffer the source allocates for it. */
  lemma MarkFits(s: CString, chars: int)
    requires 3 <= chars < Count(s, 0)
    ensures Advance(s, 0, chars - 2) + 2 <= Advance(s, 0, chars)
  {
    AdvanceSucc(s, 0, chars - 2);
    AdvanceSucc(s, 0, chars - 1);
    AdvanceBeforeEnd(s, 0, chars - 2);
    AdvanceBeforeEnd(s, 0, chars - 1);
  }
}

=== FILE: tracking_hash.dfy ===
/**
 The tracking hash of src/trackinghash.c: a hash table of keys together with a
 log `contents[0..idx)` of the keys in the order they were first added, held in
 an array of capacity `idxMax`, so that the most recent additions can be undone.
 The foreign `pfHash` table is a map from key to value; the unused tail of the
 log array, left uninitialised by the allocator, holds empty strings here.
 */
module TrackingHash {
  import opened Outcomes

  datatype TrackHash = TrackHash(
    table: map<string, string>,
    contents: seq<string>,
    idx: nat,
    idxMax: nat)

  /** The `Internal Error` aborts the operations can raise. */
  datatype TrackError =
    | TooLarge
    | Corrupted
    | DeleteFailed(key: string)
    | WriteOutOfBounds
    | ReadOutOfBounds

  /** `LONG_MAX` where `long` has 64 bits, the bound the size check evidently means. */
  const LongMax: nat := 0x7FFF_FFFF_FFFF_FFFF

  /** The log array really has room for `idxMax` entries. */
  predicate Allocated(h: TrackHash)
  {
    |h.contents| == h.idxMax
  }

  /** The keys recorded in `contents[lo..hi)`. */
  function Entries(contents: seq<string>, lo: nat, hi: nat): set<string>
    requires lo <= hi <= |contents|
  {
    set j | lo <= j < hi :: contents[j]
  }

  /**
   The representation invariant: the log fits its array, its entries are
   distinct, and they are exactly the keys of the table.
   */
  predicate Valid(h: TrackHash)
  {
    && Allocated(h)
    && h.idx <= h.idxMax
    && (forall i, j | 0 <= i < j < h.idx :: h.contents[i] != h.contents[j])
    && h.table.Keys == Entries(h.contents, 0, h.idx)
  }

  /** `VALC_create_track_hash`: an empty table and an empty log with room for `n` keys. */
  function Create(n: nat): (h: TrackHash)
    ensures Valid(h)
    ensures h.table == map[] && h.idx == 0 && h.idxMax == n
  {
    TrackHash(map[], seq(n, _ => ""), 0, n)
  }

  /** The capacity the log grows to when it is full: doubled, and at least one. */
  function NewCapacity(n: nat): (m: nat)
    ensures n < m
    ensures n > 0 ==> m == 2 * n
  {
    if n == 0 then 1 else n + n
  }

  /** Record a new key at `contents[idx]` in a log array `contents` of capacity `cap`. */
  function Store(h: TrackHash, key: string, value: string, contents: seq<string>, cap: nat, code: int): (r: Result<(TrackHash, int), TrackError>)
    requires h.idx < |contents|
  {
    Ok((TrackHash(h.table[key := value], contents[h.idx := key], h.idx + 1, cap), code))
  }

  /**
   `VALC_add_to_track_hash`: set `key` in the table; when it is new, append it
   to the log, growing the log first when it is full. The code returned is 0
   for a key already present, 1 for a new key, or the new capacity when the log
   had to grow. This is the corrected definition: see `AddAsWritten` for the
   source's growth rule.
   */
  function Add(h: TrackHash, key: string, value: string): (r: Result<(TrackHash, int), TrackError>)
    requires Allocated(h)
    ensures r.Err? <==>
      key !in h.table &&
      (h.idx > h.idxMax || (h.idx == h.idxMax && NewCapacity(h.idxMax) > LongMax))
    ensures r.Ok? ==>
      var (h', code) := r.value;
      && Allocated(h')
      && h'.table == h.table[key := value]
      && (code == 0 <==> key in h.table)
  {
    if key in h.table then
      Ok((h.(table := h.table[key := value]), 0))
    else if h.idx == h.idxMax then
      var newSize := NewCapacity(h.idxMax);
      if newSize > LongMax then Err(TooLarge)
      else Store(h, key, value, h.contents + seq(newSize - h.idxMax, _ => ""), newSize, newSize)
    else if h.idx > h.idxMax then Err(Corrupted)
    else Store(h, key, value, h.contents, h.idxMax, 1)
  }

  /** Adding a key already present answers 0 and leaves the log as it was. */
  lemma AddExisting(h: TrackHash, key: string, value: string)
    requires Allocated(h) && key in h.table
    ensures Add(h, key, value).Ok?
    ensures var (h', code) := Add(h, key, value).value;
      code == 0 && h'.contents == h.contents && h'.idx == h.idx && h'.idxMax == h.idxMax
  {
  }

  /** A new key with room in the log is stored at `contents[idx]`, the rest of the log kept, and the answer is 1. */
  lemma AddFresh(h: TrackHash, key: string, value: string)
    requires Valid(h) && key !in h.table && h.idx < h.idxMax
    ensures Add(h, key, value).Ok?
    ensures var (h', code) := Add(h, key, value).value;
      && code == 1
      && h'.idx == h.idx + 1 && h'.idxMax == h.idxMax
      && h'.contents[..h'.idx] == h.contents[..h.idx] + [key]
  {
    var h' := Add(h, key, value).value.0;
    assert h'.contents[..h'.idx] == h.contents[..h.idx] + [key];
  }

  /** A new key with the log full doubles its capacity (one when it was zero) and answers the new capacity. */
  lemma AddGrows(h: TrackHash, key: string, value: string)
    requires Valid(h) && key !in h.table && h.idx == h.idxMax
    requires NewCapacity(h.idxMax) <= LongMax
    ensures Add(h, key, value).Ok?
    ensures var (h', code) := Add(h, key, value).value;
      && h'.idxMax == NewCapacity(h.idxMax) && code == h'.idxMax
      && h'.idx == h.idx + 1 && h'.idx <= h'.idxMax
      && h'.contents[..h'.idx] == h.contents[..h.idx] + [key]
  {
    var h' := Add(h, key, value).value.0;
    assert h'.contents[..h'.idx] == h.contents[..h.idx] + [key];
  }

  /** On a valid hash the only error `Add` can raise is the size check: the log is never corrupted. */
  lemma AddNeverCorrupted(h: TrackHash, key: string, value: string)
    requires Valid(h)
    ensures Add(h, key, value) != Err(Corrupted)
    ensures Add(h, key, value).Err? <==> key !in h.table && h.idx == h.idxMax && NewCapacity(h.idxMax) > LongMax
  {
  }

  /** The keys of a log prefix, grown by one entry. */
  lemma EntriesSnoc(contents: seq<string>, hi: nat)
    requires hi < |contents|
    ensures Entries(contents, 0, hi + 1) == Entries(contents, 0, hi) + {contents[hi]}
  {
  }

  /** Entries depend only on the part of the log they range over. */
  lemma EntriesPrefix(a: seq<string>, b: seq<string>, hi: nat)
    requires hi <= |a| && hi <= |b| && a[..hi] == b[..hi]
    ensures Entries(a, 0, hi) == Entries(b, 0, hi)
  {
    forall j | 0 <= j < hi
      ensures a[j] == b[j]
    {
      assert a[j] == a[..hi][j];
    }
  }

  /** `Add` keeps the invariant, and the table gains exactly `key`. */
  lemma AddValid(h: TrackHash, key: string, value: string)
    requires Valid(h) && Add(h, key, value).Ok?
    ensures Valid(Add(h, key, value).value.0)
    ensures Add(h, key, value).value.0.table.Keys == h.table.Keys + {key}
  {
    var h' := Add(h, key, value).value.0;
    if key !in h.table {
      assert h'.contents[..h.idx] == h.contents[..h.idx];
      EntriesPrefix(h'.contents, h.contents, h.idx);
      EntriesSnoc(h'.contents, h.idx);
      forall i, j | 0 <= i < j < h'.idx
        ensures h'.contents[i] != h'.contents[j]
      {
        if j == h.idx {
          assert h'.contents[i] == h.contents[i];
          assert h.contents[i] in Entries(h.contents, 0, h.idx);
        } else {
          assert h'.contents[i] == h.contents[i] && h'.contents[j] == h.contents[j];
        }
      }
    }
  }

  /**
   The loop of `VALC_reset_track_hash`: delete `contents[i-1]`, then
   `contents[i-2]`, down to `contents[k]`, failing on a key the table lacks.
   */
  function Unlog(table: map<string, string>, contents: seq<string>, i: nat, k: nat): (r: Result<map<string, string>, TrackError>)
    requires i <= |contents|
    ensures r.Ok? && k <= i ==> r.value == table - Entries(contents, k, i)
    ensures r.Ok? && i <= k ==> r.value == table
    ensures r.Err? ==> r.error.DeleteFailed? && r.error.key in Entries(contents, if k <= i then k else i, i)
    decreases i
  {
    if i <= k then Ok(table)
    else if contents[i - 1] !in table then Err(DeleteFailed(contents[i - 1]))
    else Unlog(table - {contents[i - 1]}, contents, i - 1, k)
  }

  /** Every delete succeeds while the keys to delete are distinct and all in the table. */
  lemma {:induction false} UnlogSucceeds(table: map<string, string>, contents: seq<string>, i: nat, k: nat)
    requires k <= i <= |contents|
    requires forall a, b | k <= a < b < i :: contents[a] != contents[b]
    requires Entries(contents, k, i) <= table.Keys
    ensures Unlog(table, contents, i, k).Ok?
    decreases i
  {
    if i > k {
      var key := contents[i - 1];
      assert key in Entries(contents, k, i);
      assert Entries(contents, k, i - 1) <= (table - {key}).Keys by {
        forall j | k <= j < i - 1
          ensures contents[j] in (table - {key}).Keys
        {
          assert contents[j] in Entries(contents, k, i);
        }
      }
      UnlogSucceeds(table - {key}, contents, i - 1, k);
    }
  }

  /**
   `VALC_reset_track_hash(k)`: delete the keys logged after position `k`,
   newest first, then set `idx` to `k`. The source checks neither `k` nor
   `idx`: once a reset has moved `idx` past the array, the next reset below it
   reads `contents[idx - 1]` beyond the end, reported as `ReadOutOfBounds`.
   */
  function Reset(h: TrackHash, k: nat): (r: Result<TrackHash, TrackError>)
    ensures r.Ok? ==> r.value.idx == k && r.value.contents == h.contents && r.value.idxMax == h.idxMax
    ensures r.Ok? && k < h.idx ==> h.idx <= |h.contents| && r.value.table == h.table - Entries(h.contents, k, h.idx)
    ensures r.Ok? && h.idx <= k ==> r.value.table == h.table
    ensures r == Err(ReadOutOfBounds) <==> k < h.idx && h.idx > |h.contents|
  {
    if h.idx <= k then Ok(h.(idx := k))
    else if h.idx > |h.contents| then Err(ReadOutOfBounds)
    else
      var t :- Unlog(h.table, h.contents, h.idx, k);
      Ok(h.(table := t, idx := k))
  }

  /** The keys of a log prefix split at `k`. */
  lemma EntriesSplit(contents: seq<string>, k: nat, hi: nat)
    requires k <= hi <= |contents|
    ensures Entries(contents, 0, hi) == Entries(contents, 0, k) + Entries(contents, k, hi)
  {
    forall x | x in Entries(contents, 0, hi)
      ensures x in Entries(contents, 0, k) + Entries(contents, k, hi)
    {
      var j :| 0 <= j < hi && contents[j] == x;
      if j < k {
        assert x in Entries(contents, 0, k);
      } else {
        assert x in Entries(contents, k, hi);
      }
    }
  }

  /**
   On a valid hash a reset never fails, and it keeps the invariant exactly when
   `k <= idx`; it then leaves the table holding the first `k` logged keys.
   A `k` beyond `idx` is not rejected by the source, and leaves a broken hash.
   */
  lemma ResetValid(h: TrackHash, k: nat)
    requires Valid(h)
    ensures Reset(h, k).Ok?
    ensures Valid(Reset(h, k).value) <==> k <= h.idx
    ensures k <= h.idx ==> Reset(h, k).value.table.Keys == Entries(h.contents, 0, k)
  {
    if k <= h.idx {
      ResetWithin(h, k);
    } else {
      ResetBeyond(h, k);
    }
  }

  /** A reset to a logged position keeps the invariant and keeps the first `k` logged keys. */
  lemma ResetWithin(h: TrackHash, k: nat)
    requires Valid(h) && k <= h.idx
    ensures Reset(h, k).Ok?
    ensures Valid(Reset(h, k).value)
    ensures Reset(h, k).value.table.Keys == Entries(h.contents, 0, k)
  {
    EntriesSplit(h.contents, 0, h.idx);
    UnlogSucceeds(h.table, h.contents, h.idx, k);
    EntriesSplit(h.contents, k, h.idx);
    forall x | x in Entries(h.contents, k, h.idx)
      ensures x !in Entries(h.contents, 0, k)
    {
      var j :| k <= j < h.idx && h.contents[j] == x;
    }
  }

  /** A reset past `idx` deletes nothing but moves `idx`, which breaks the invariant. */
  lemma ResetBeyond(h: TrackHash, k: nat)
    requires Valid(h) && h.idx < k
    ensures Reset(h, k).Ok?
    ensures !Valid(Reset(h, k).value)
  {
    var h' := Reset(h, k).value;
    assert h'.table == h.table && h'.idx == k;
    if k <= h.idxMax {
      var x := h.contents[h.idx];
      assert x in Entries(h.contents, 0, k);
      if x in h.table.Keys {
        var i :| 0 <= i < h.idx && h.contents[i] == x;
        assert h'.contents[i] == h'.contents[h.idx];
      }
    }
  }

  /** `reset(0)` empties the table. */
  lemma ResetAll(h: TrackHash)
    requires Valid(h)
    ensures Reset(h, 0).Ok? && Reset(h, 0).value.table == map[] && Valid(Reset(h, 0).value)
  {
    ResetValid(h, 0);
  }

  /** Add the keys one after another, all with the same value, collecting the codes. */
  function AddAll(h: TrackHash, keys: seq<string>, value: string): (r: Result<(TrackHash, seq<int>), TrackError>)
    requires Valid(h)
    ensures r.Ok? ==> Valid(r.value.0) && |r.value.1| == |keys|
    decreases |keys|
  {
    if keys == [] then Ok((h, []))
    else
      var (h1, code) :- Add(h, keys[0], value);
      AddValid(h, keys[0], value);
      var (h2, codes) :- AddAll(h1, keys[1..], value);
      Ok((h2, [code] + codes))
  }

  /** Adding keys only extends the log: the first `idx` entries stay where they were. */
  lemma {:induction false} AddAllExtends(h: TrackHash, keys: seq<string>, value: string)
    requires Valid(h) && AddAll(h, keys, value).Ok?
    ensures var h' := AddAll(h, keys, value).value.0;
      h.idx <= h'.idx && h'.contents[..h.idx] == h.contents[..h.idx]
    decreases |keys|
  {
    if keys != [] {
      var h1 := Add(h, keys[0], value).value.0;
      AddValid(h, keys[0], value);
      AddAllExtends(h1, keys[1..], value);
      assert h1.contents[..h.idx] == h.contents[..h.idx];
      var h' := AddAll(h, keys, value).value.0;
      assert h'.contents[..h.idx] == h'.contents[..h1.idx][..h.idx];
    }
  }

  /**
   Rollback: resetting to the position a hash had before a run of additions
   restores its key set, whatever keys were added.
   */
  lemma Rollback(h: TrackHash, keys: seq<string>, value: string)
    requires Valid(h) && AddAll(h, keys, value).Ok?
    ensures var h' := AddAll(h, keys, value).value.0;
      && Reset(h', h.idx).Ok?
      && Valid(Reset(h', h.idx).value)
      && Reset(h', h.idx).value.table.Keys == h.table.Keys
  {
    var h' := AddAll(h, keys, value).value.0;
    AddAllExtends(h, keys, value);
    ResetValid(h', h.idx);
    EntriesPrefix(h'.contents, h.contents, h.idx);
  }

  /** Adding fresh distinct keys within capacity appends them all, each answering 1. */
  lemma {:induction false} AddAllFresh(h: TrackHash, keys: seq<string>, value: string)
    requires Valid(h) && h.idx + |keys| <= h.idxMax
    requires forall i, j | 0 <= i < j < |keys| :: keys[i] != keys[j]
    requires forall i | 0 <= i < |keys| :: keys[i] !in h.table
    ensures AddAll(h, keys, value).Ok?
    ensures var (h', codes) := AddAll(h, keys, value).value;
      && h'.idx == h.idx + |keys| && h'.idxMax == h.idxMax
      && forall i | 0 <= i < |codes| :: codes[i] == 1
    decreases |keys|
  {
    if keys != [] {
      AddFresh(h, keys[0], value);
      AddValid(h, keys[0], value);
      var h1 := Add(h, keys[0], value).value.0;
      AddAllFresh(h1, keys[1..], value);
    }
  }

  /** After a run of additions the table holds its old keys and the added ones, and nothing else. */
  lemma {:induction false} AddAllKeys(h: TrackHash, keys: seq<string>, value: string)
    requires Valid(h) && AddAll(h, keys, value).Ok?
    ensures AddAll(h, keys, value).value.0.table.Keys == h.table.Keys + set k | k in keys
    decreases |keys|
  {
    if keys != [] {
      AddValid(h, keys[0], value);
      var h1 := Add(h, keys[0], value).value.0;
      AddAllKeys(h1, keys[1..], value);
      assert (set k | k in keys) == {keys[0]} + set k | k in keys[1..];
    }
  }

  // The growth rule as the source writes it.

  /** `sizeof(long)` on LP64 platforms (64-bit Linux and macOS); 64-bit Windows has a 4-byte `long`. */
  const SizeofLong: nat := 8

  function Pow2(n: nat): (p: nat)
    ensures 1 <= p
  {
    if n == 0 then 1 else 2 * Pow2(n - 1)
  }

  /**
   The size limit as the source computes it: one shifted left by
   `sizeof(long)`, which counts bytes rather than bits, then halved.
   */
  const MaxLongAsWritten: nat := Pow2(SizeofLong) / 2

  /** The store of the source, which writes `contents[idx]` whether or not the array has that slot. */
  function StoreAsWritten(h: TrackHash, key: string, value: string, contents: seq<string>, cap: nat, code: int): (r: Result<(TrackHash, int), TrackError>)
  {
    if h.idx < |contents| then Store(h, key, value, contents, cap, code) else Err(WriteOutOfBounds)
  }

  /**
   `VALC_add_to_track_hash` as written: a full log grows to twice its
   capacity, checked against `MaxLongAsWritten`. A write past the end of the
   array is reported as `WriteOutOfBounds`.
   */
  function AddAsWritten(h: TrackHash, key: string, value: string): (r: Result<(TrackHash, int), TrackError>)
    requires Allocated(h)
    ensures r.Ok? ==> r.value.0.table == h.table[key := value]
    ensures r == Err(TooLarge) ==> h.idxMax > 64
    ensures key !in h.table && h.idx == h.idxMax ==> (r == Err(TooLarge) <==> h.idxMax > 64)
  {
    assert MaxLongAsWritten == 128;
    if key in h.table then
      Ok((h.(table := h.table[key := value]), 0))
    else if h.idx == h.idxMax then
      var newSize := h.idxMax + h.idxMax;
      if newSize > MaxLongAsWritten then Err(TooLarge)
      else StoreAsWritten(h, key, value, h.contents + seq(newSize - h.idxMax, _ => ""), newSize, newSize)
    else if h.idx > h.idxMax then Err(Corrupted)
    else StoreAsWritten(h, key, value, h.contents, h.idxMax, 1)
  }

  /** Below the faulty limit and away from an empty log the two growth rules agree. */
  lemma AddAsWrittenAgrees(h: TrackHash, key: string, value: string)
    requires Valid(h)
    requires h.idx < h.idxMax || 0 < h.idxMax <= 64
    ensures AddAsWritten(h, key, value) == Add(h, key, value)
  {
    assert MaxLongAsWritten == 128;
  }

  /** Distinct keys "k", "kk", "kkk", ... */
  function Repeats(n: nat): (keys: seq<string>)
    ensures |keys| == n
    ensures forall i | 0 <= i < n :: |keys[i]| == i + 1
  {
    seq(n, i requires 0 <= i => seq(i + 1, _ => 'k'))
  }

  /**
   A full log of 128 keys cannot take one more: the source's limit is 128,
   not `LONG_MAX`, so a new key aborts, where the corrected rule grows the
   log to 256.
   */
  lemma AddAsWrittenStopsAt128(h: TrackHash, key: string, value: string)
    requires Valid(h) && h.idx == h.idxMax == 128 && key !in h.table
    ensures AddAsWritten(h, key, value) == Err(TooLarge)
    ensures Add(h, key, value).Ok? && Add(h, key, value).value.1 == 256
  {
    assert MaxLongAsWritten == 128;
  }

  /**
   A reset past the capacity is accepted and leaves `idx` beyond the array;
   a later reset below it then reads past the end of the log.
   */
  lemma ResetPastEndThenReset(h: TrackHash, k: nat)
    requires Valid(h) && h.idxMax < k
    ensures Reset(h, k).Ok? && Reset(h, k).value.idx > |Reset(h, k).value.contents|
    ensures Reset(Reset(h, k).value, h.idx) == Err(ReadOutOfBounds)
  {
  }

  /** Such a full log is reached by adding 128 distinct keys to a log created with capacity 128, and "" is not among them. */
  lemma FullLogReachable()
    ensures AddAll(Create(128), Repeats(128), "42").Ok?
    ensures var h := AddAll(Create(128), Repeats(128), "42").value.0;
      Valid(h) && h.idx == h.idxMax == 128 && "" !in h.table
  {
    var keys := Repeats(128);
    AddAllFresh(Create(128), keys, "42");
    AddAllKeys(Create(128), keys, "42");
    assert "" !in set k | k in keys;
  }

  /**
   A log created with capacity 0 doubles to 0 and the first key is written past
   the end of the array; the corrected rule grows it to 1.
   */
  lemma AddAsWrittenFromEmpty()
    ensures AddAsWritten(Create(0), "a", "42") == Err(WriteOutOfBounds)
    ensures Add(Create(0), "a", "42").Ok?
    ensures var (h', code) := Add(Create(0), "a", "42").value;
      Valid(h') && h'.idx == 1 && code == 1
  {
    AddGrows(Create(0), "a", "42");
    AddValid(Create(0), "a", "42");
  }
}

/**
 The tracking hash as the source keeps it: one mutable record whose log is an
 array that is reallocated when full. Each operation is stated against the
 functional model in `TrackingHash`.
 */
module TrackingTable {
  import opened Outcomes
  import TrackingHash

  class Tracker {
    var table: map<string, string>
    var contents: array<string>
    var idx: nat

    /** The state as a value of the functional model; the array length is `idx_max`. */
    function Model(): TrackingHash.TrackHash
      reads this, contents
    {
      TrackingHash.TrackHash(table, contents[..], idx, contents.Length)
    }

    /** The object invariant: the state is a valid tracking hash. */
    ghost predicate Valid()
      reads this, contents
    {
      TrackingHash.Valid(Model())
    }

    /** `VALC_create_track_hash`. */
    constructor(n: nat)
      ensures Model() == TrackingHash.Create(n) && Valid()
      ensures fresh(contents)
    {
      table := map[];
      contents := new string[n](_ => "");
      idx := 0;
    }

    /** `VALC_add_to_track_hash`, with the corrected growth rule. */
    method Add(key: string, value: string) returns (r: Result<int, TrackingHash.TrackError>)
      modifies this, contents
      ensures var m := TrackingHash.Add(old(Model()), key, value);
        && r.Ok? == m.Ok?
        && (r.Ok? ==> r.value == m.value.1 && Model() == m.value.0)
      ensures contents == old(contents) || fresh(contents)
      ensures old(Valid()) && r.Ok? ==> Valid()
    {
      ghost var before := Model();
      if Valid() && TrackingHash.Add(before, key, value).Ok? {
        TrackingHash.AddValid(before, key, value);
      }
      var code := 1;
      if key in table {
        table := table[key := value];
        return Ok(0);
      }
      if idx == contents.Length {
        var newSize := TrackingHash.NewCapacity(contents.Length);
        if newSize > TrackingHash.LongMax {
          return Err(TrackingHash.TooLarge);
        }
        var grown := new string[newSize](_ => "");
        var i := 0;
        while i < contents.Length
          modifies grown
          invariant i <= contents.Length < grown.Length == newSize
          invariant forall j | 0 <= j < i :: grown[j] == contents[j]
          invariant forall j | contents.Length <= j < newSize :: grown[j] == ""
        {
          grown[i] := contents[i];
          i := i + 1;
        }
        assert grown[..] == contents[..] + seq(newSize - contents.Length, _ => "");
        contents := grown;
        code := newSize;
      } else if idx > contents.Length {
        return Err(TrackingHash.Corrupted);
      }
      table := table[key := value];
      contents[idx] := key;
      idx := idx + 1;
      r := Ok(code);
    }

    /** `VALC_reset_track_hash`: the deletion loop runs from `idx` down to `k`. */
    method Reset(k: nat) returns (r: Result<(), TrackingHash.TrackError>)
      modifies this
      ensures var m := TrackingHash.Reset(old(Model()), k);
        && r.Ok? == m.Ok?
        && (r.Ok? ==> Model() == m.value)
      ensures contents == old(contents)
      ensures old(Valid()) && r.Ok? ==> (Valid() <==> k <= old(idx))
    {
      ghost var before := Model();
      if Valid() && TrackingHash.Reset(before, k).Ok? {
        TrackingHash.ResetValid(before, k);
      }
      if idx <= k {
        idx := k;
        return Ok(());
      }
      if idx > contents.Length {
        return Err(TrackingHash.ReadOutOfBounds);
      }
      var i: nat := idx;
      while i > k
        invariant contents == old(contents) && idx == old(idx)
        invariant i <= idx <= contents.Length
        invariant TrackingHash.Unlog(old(table), contents[..], idx, k) ==
          TrackingHash.Unlog(table, contents[..], i, k)
      {
        var key := contents[i - 1];
        if key !in table {
          return Err(TrackingHash.DeleteFailed(key));
        }
        table := table - {key};
        i := i - 1;
      }
      idx := k;
      r := Ok(());
    }
  }
}

=== FILE: utf8.dfy ===
/**
 UTF-8 character stepping, as done byte by byte by `utf8_offset` in
 src/strsub.c, together with an independent statement of Table 3-7
 ("Well-Formed UTF-8 Byte Sequences") of section 3.9 of The Unicode Standard,
 Version 10.0, and of the "maximal subpart" rule for ill-formed input.

 A C string is a sequence of non-zero bytes; the byte read at or after its end
 is the NUL terminator.
 */
module Utf8 {

  /** A C string: no byte of it is the NUL terminator. */
  type CString = s: seq<bv8> | forall i | 0 <= i < |s| :: s[i] != 0

  /** The byte at position `i` of a NUL-terminated string. */
  function ByteAt(s: seq<bv8>, i: nat): bv8
  {
    if i < |s| then s[i] else 0
  }

  /** `UTF8_BW`: inclusive range test on one byte. */
  predicate Between(b: bv8, lo: bv8, hi: bv8)
  {
    lo <= b <= hi
  }

  /** `UTF8_IS_CONT`: a continuation byte, 0x80..0xBF. */
  predicate IsCont(b: bv8)
  {
    Between(b, 0x80, 0xBF)
  }

  /**
   The decision of `utf8_offset` on the (at most) four bytes it looks at:
   the lead byte `b0` and the three bytes after it.
   */
  function OffsetOf(b0: bv8, b1: bv8, b2: bv8, b3: bv8): (n: nat)
    ensures 1 <= n <= 4
    ensures b0 & 0x80 == 0 ==> n == 1
    ensures Between(b0, 0x80, 0xC1) || Between(b0, 0xF5, 0xFF) ==> n == 1
    ensures n >= 2 ==> IsCont(b1) && b0 >= 0xC2
    ensures n >= 3 ==> IsCont(b2) && b0 >= 0xE0
    ensures n == 4 ==> IsCont(b3) && b0 >= 0xF0
  {
    if b0 & 0x80 == 0 then 1
    else if Between(b0, 0xC2, 0xDF) then
      if IsCont(b1) then 2 else 1
    else if b0 == 0xE0 then
      if Between(b1, 0xA0, 0xBF) then (if IsCont(b2) then 3 else 2) else 1
    else if b0 == 0xED then
      if Between(b1, 0x80, 0x9F) then (if IsCont(b2) then 3 else 2) else 1
    else if Between(b0, 0xE0, 0xEF) then
      if IsCont(b1) then (if IsCont(b2) then 3 else 2) else 1
    else if b0 == 0xF0 then
      if Between(b1, 0x90, 0xBF) then
        (if IsCont(b2) then (if IsCont(b3) then 4 else 3) else 2)
      else 1
    else if Between(b0, 0xF1, 0xF3) then
      if IsCont(b1) then
        (if IsCont(b2) then (if IsCont(b3) then 4 else 3) else 2)
      else 1
    else if b0 == 0xF4 then
      if Between(b1, 0x80, 0x8F) then
        (if IsCont(b2) then (if IsCont(b3) then 4 else 3) else 2)
      else 1
    else 1
  }

  /** `utf8_offset(s + i)`: how many bytes the character starting at `i` takes. */
  function Offset(s: seq<bv8>, i: nat): (n: nat)
    ensures 1 <= n <= 4
    ensures i < |s| ==> i + n <= |s|
  {
    OffsetOf(ByteAt(s, i), ByteAt(s, i + 1), ByteAt(s, i + 2), ByteAt(s, i + 3))
  }

  /** The `n` bytes starting at `i`, reading the terminator (and zeros) past the end. */
  function Window(s: seq<bv8>, i: nat, n: nat): (w: seq<bv8>)
    ensures |w| == n
  {
    seq(n, k requires 0 <= k < n => ByteAt(s, i + k))
  }

  // ---------------------------------------------------------------------------
  // Table 3-7 of The Unicode Standard, Version 10.0, section 3.9

  datatype Range = Range(lo: bv8, hi: bv8)

  predicate InRange(b: bv8, r: Range)
  {
    r.lo <= b <= r.hi
  }

  const Cont := Range(0x80, 0xBF)

  /** The first column of Table 3-7: the bytes that can start a well-formed sequence. */
  predicate IsLead(b0: bv8)
  {
    b0 <= 0x7F || 0xC2 <= b0 <= 0xF4
  }

  /**
   The rest of the row of Table 3-7 selected by the lead byte `b0`: the allowed
   range of each following byte.
   */
  function Trail(b0: bv8): seq<Range>
    requires IsLead(b0)
  {
    if b0 <= 0x7F then []                                   // U+0000..U+007F
    else if b0 <= 0xDF then [Cont]                          // U+0080..U+07FF
    else if b0 == 0xE0 then [Range(0xA0, 0xBF), Cont]       // U+0800..U+0FFF
    else if b0 <= 0xEC then [Cont, Cont]                    // U+1000..U+CFFF
    else if b0 == 0xED then [Range(0x80, 0x9F), Cont]       // U+D000..U+D7FF
    else if b0 <= 0xEF then [Cont, Cont]                    // U+E000..U+FFFF
    else if b0 == 0xF0 then [Range(0x90, 0xBF), Cont, Cont] // U+10000..U+3FFFF
    else if b0 <= 0xF3 then [Cont, Cont, Cont]              // U+40000..U+FFFFF
    else [Range(0x80, 0x8F), Cont, Cont]                    // U+100000..U+10FFFF
  }

  /** `p` is a non-empty initial part of some well-formed sequence of Table 3-7. */
  predicate IsValidPrefix(p: seq<bv8>)
  {
    && 1 <= |p|
    && IsLead(p[0])
    && |p| <= 1 + |Trail(p[0])|
    && forall k | 1 <= k < |p| :: InRange(p[k], Trail(p[0])[k - 1])
  }

  /** `p` is a whole well-formed sequence of Table 3-7. */
  predicate IsWellFormed(p: seq<bv8>)
  {
    IsValidPrefix(p) && |p| == 1 + |Trail(p[0])|
  }

  /**
   The length of the maximal subpart at `i`: the longest window that is the
   initial part of a well-formed sequence, or one byte when none is.
   */
  function MaximalSubpart(s: seq<bv8>, i: nat): nat
  {
    if IsValidPrefix(Window(s, i, 4)) then 4
    else if IsValidPrefix(Window(s, i, 3)) then 3
    else if IsValidPrefix(Window(s, i, 2)) then 2
    else 1
  }

  /** The maximal subpart length of the window `[b0, b1, b2, b3]`. */
  function MaximalSubpartOf(b0: bv8, b1: bv8, b2: bv8, b3: bv8): nat
  {
    if IsValidPrefix([b0, b1, b2, b3]) then 4
    else if IsValidPrefix([b0, b1, b2]) then 3
    else if IsValidPrefix([b0, b1]) then 2
    else 1
  }

  /** `IsValidPrefix` on a window of at most four bytes, position by position. */
  lemma ValidPrefixBytes(p: seq<bv8>)
    requires 1 <= |p| <= 4
    ensures IsValidPrefix(p) <==>
      && IsLead(p[0])
      && |p| <= 1 + |Trail(p[0])|
      && (|p| >= 2 ==> InRange(p[1], Trail(p[0])[0]))
      && (|p| >= 3 ==> InRange(p[2], Trail(p[0])[1]))
      && (|p| >= 4 ==> InRange(p[3], Trail(p[0])[2]))
  {
  }

  /** Validity of the 2-, 3- and 4-byte windows in terms of the row of the lead byte. */
  lemma WindowsValid(b0: bv8, b1: bv8, b2: bv8, b3: bv8)
    requires IsLead(b0) && b0 >= 0xC2
    ensures IsValidPrefix([b0, b1]) <==> InRange(b1, Trail(b0)[0])
    ensures IsValidPrefix([b0, b1, b2]) <==>
      |Trail(b0)| >= 2 && InRange(b1, Trail(b0)[0]) && InRange(b2, Trail(b0)[1])
    ensures IsValidPrefix([b0, b1, b2, b3]) <==>
      |Trail(b0)| == 3 && InRange(b1, Trail(b0)[0]) && InRange(b2, Trail(b0)[1]) && InRange(b3, Trail(b0)[2])
  {
    var w4, w3, w2 := [b0, b1, b2, b3], [b0, b1, b2], [b0, b1];
    ValidPrefixBytes(w4);
    ValidPrefixBytes(w3);
    ValidPrefixBytes(w2);
    assert w4[0] == b0 && w4[1] == b1 && w4[2] == b2 && w4[3] == b3;
    assert w3[0] == b0 && w3[1] == b1 && w3[2] == b2;
    assert w2[0] == b0 && w2[1] == b1;
  }

  lemma SingleByteCase(b0: bv8, b1: bv8, b2: bv8, b3: bv8)
    requires b0 <= 0xC1 || b0 >= 0xF5
    ensures OffsetOf(b0, b1, b2, b3) == MaximalSubpartOf(b0, b1, b2, b3) == 1
  {
    var w4, w3, w2 := [b0, b1, b2, b3], [b0, b1, b2], [b0, b1];
    ValidPrefixBytes(w4);
    ValidPrefixBytes(w3);
    ValidPrefixBytes(w2);
    assert w4[0] == b0 && w3[0] == b0 && w2[0] == b0;
    if b0 <= 0x7F {
      assert Trail(b0) == [];
    }
  }

  lemma TwoByteLeadCase(b0: bv8, b1: bv8, b2: bv8, b3: bv8)
    requires 0xC2 <= b0 <= 0xDF
    ensures OffsetOf(b0, b1, b2, b3) == MaximalSubpartOf(b0, b1, b2, b3)
  {
    WindowsValid(b0, b1, b2, b3);
    assert Trail(b0) == [Cont];
  }

  lemma ThreeByteLeadCase(b0: bv8, b1: bv8, b2: bv8, b3: bv8)
    requires 0xE0 <= b0 <= 0xEF
    ensures OffsetOf(b0, b1, b2, b3) == MaximalSubpartOf(b0, b1, b2, b3)
  {
    WindowsValid(b0, b1, b2, b3);
    if b0 == 0xE0 {
      assert Trail(b0) == [Range(0xA0, 0xBF), Cont];
    } else if b0 == 0xED {
      assert Trail(b0) == [Range(0x80, 0x9F), Cont];
    } else {
      assert Trail(b0) == [Cont, Cont];
    }
  }

  lemma FourByteLeadCase(b0: bv8, b1: bv8, b2: bv8, b3: bv8)
    requires 0xF0 <= b0 <= 0xF4
    ensures OffsetOf(b0, b1, b2, b3) == MaximalSubpartOf(b0, b1, b2, b3)
  {
    WindowsValid(b0, b1, b2, b3);
    if b0 == 0xF0 {
      assert Trail(b0) == [Range(0x90, 0xBF), Cont, Cont];
    } else if b0 == 0xF4 {
      assert Trail(b0) == [Range(0x80, 0x8F), Cont, Cont];
    } else {
      assert Trail(b0) == [Cont, Cont, Cont];
    }
  }

  /**
   `utf8_offset` advances by exactly the maximal subpart: the longest initial
   part of a well-formed sequence of Table 3-7, or a single byte.
   */
  lemma OffsetOfIsMaximalSubpart(b0: bv8, b1: bv8, b2: bv8, b3: bv8)
    ensures OffsetOf(b0, b1, b2, b3) == MaximalSubpartOf(b0, b1, b2, b3)
  {
    if b0 <= 0xC1 || b0 >= 0xF5 {
      SingleByteCase(b0, b1, b2, b3);
    } else if b0 <= 0xDF {
      TwoByteLeadCase(b0, b1, b2, b3);
    } else if b0 <= 0xEF {
      ThreeByteLeadCase(b0, b1, b2, b3);
    } else {
      FourByteLeadCase(b0, b1, b2, b3);
    }
  }

  lemma WindowBytes(s: seq<bv8>, i: nat, n: nat)
    requires 1 <= n <= 4
    ensures Window(s, i, n) == [ByteAt(s, i), ByteAt(s, i + 1), ByteAt(s, i + 2), ByteAt(s, i + 3)][..n]
  {
  }

  lemma OffsetIsMaximalSubpart(s: seq<bv8>, i: nat)
    ensures Offset(s, i) == MaximalSubpart(s, i)
  {
    var b0, b1, b2, b3 := ByteAt(s, i), ByteAt(s, i + 1), ByteAt(s, i + 2), ByteAt(s, i + 3);
    WindowBytes(s, i, 4);
    WindowBytes(s, i, 3);
    WindowBytes(s, i, 2);
    assert [b0, b1, b2, b3][..3] == [b0, b1, b2];
    assert [b0, b1, b2, b3][..2] == [b0, b1];
    OffsetOfIsMaximalSubpart(b0, b1, b2, b3);
  }

  /**
   A window that is a whole well-formed sequence is consumed as one character:
   `utf8_offset` returns its length.
   */
  lemma WellFormedOffset(s: seq<bv8>, i: nat, n: nat)
    requires 1 <= n <= 4
    requires IsWellFormed(Window(s, i, n))
    ensures Offset(s, i) == n
  {
    OffsetIsMaximalSubpart(s, i);
    var b0 := ByteAt(s, i);
    forall m | n < m <= 4
      ensures !IsValidPrefix(Window(s, i, m))
    {
      assert Window(s, i, m)[0] == b0 == Window(s, i, n)[0];
    }
  }

  /**
   Only the bytes a character actually takes, and the one byte after it,
   decide its offset; a byte below 0x80 in that position never extends it.
   */
  lemma OffsetOfStable(b0: bv8, b1: bv8, b2: bv8, b3: bv8, c0: bv8, c1: bv8, c2: bv8, c3: bv8)
    requires c0 == b0
    requires OffsetOf(b0, b1, b2, b3) >= 2 ==> c1 == b1
    requires OffsetOf(b0, b1, b2, b3) >= 3 ==> c2 == b2
    requires OffsetOf(b0, b1, b2, b3) == 4 ==> c3 == b3
    requires OffsetOf(b0, b1, b2, b3) == 1 ==> c1 == b1 || c1 < 0x80
    requires OffsetOf(b0, b1, b2, b3) == 2 ==> c2 == b2 || c2 < 0x80
    requires OffsetOf(b0, b1, b2, b3) == 3 ==> c3 == b3 || c3 < 0x80
    ensures OffsetOf(c0, c1, c2, c3) == OffsetOf(b0, b1, b2, b3)
  {
  }

  /**
   `utf8_offset` never steps over the terminator: appending a NUL and any
   bytes after it leaves the offset of every character of `s` unchanged.
   */
  lemma OffsetStopsAtTerminator(s: seq<bv8>, t: seq<bv8>, i: nat)
    requires i < |s|
    ensures Offset(s + [0] + t, i) == Offset(s, i)
  {
    var u := s + [0] + t;
    var o := Offset(s, i);
    forall j: nat | j <= |s|
      ensures ByteAt(u, j) == ByteAt(s, j)
    {
    }
    OffsetOfStable(ByteAt(s, i), ByteAt(s, i + 1), ByteAt(s, i + 2), ByteAt(s, i + 3),
                   ByteAt(u, i), ByteAt(u, i + 1), ByteAt(u, i + 2), ByteAt(u, i + 3));
  }
}

=== FILE: wraps.dfy ===
/**
 Error locations. A failing comparison carries a "wrap": the R call that
 reaches the offending part of the object, such as `names(x)[3]`, with a hole
 where the object goes. In src/attr.c a wrap is a pair of the call and a
 pointer to the cell to fill; here it is the sequence of frames, outermost
 first, each frame a call with one hole. Putting a frame inside the current
 hole is appending it.
 */
module Wraps {

  datatype Expr =
    | Hole
    | Nil
    | Sym(name: string)
    | Num(n: int)
    | Text(s: string)
    | Call(fn: string, args: seq<Expr>)

  type Wrap = seq<Expr>

  /** `e` with its holes replaced by `x`. */
  function Plug(e: Expr, x: Expr): Expr
    decreases e
  {
    match e
    case Hole => x
    case Call(fn, args) => Call(fn, PlugAll(args, x))
    case _ => e
  }

  /** Every argument of a call with its holes replaced by `x`. */
  function PlugAll(args: seq<Expr>, x: Expr): (r: seq<Expr>)
    ensures |r| == |args|
    decreases args
  {
    if args == [] then [] else [Plug(args[0], x)] + PlugAll(args[1..], x)
  }

  /** Plugging a call of one argument plugs that argument. */
  lemma PlugCall1(fn: string, a: Expr, x: Expr)
    ensures Plug(Call(fn, [a]), x) == Call(fn, [Plug(a, x)])
  {
    assert [a][1..] == [];
  }

  /** Plugging a call of two arguments plugs both. */
  lemma PlugCall2(fn: string, a: Expr, b: Expr, x: Expr)
    ensures Plug(Call(fn, [a, b]), x) == Call(fn, [Plug(a, x), Plug(b, x)])
  {
    assert [a, b][1..] == [b];
    assert [b][1..] == [];
    assert PlugAll([b], x) == [Plug(b, x)];
  }

  /** The expression a wrap stands for once the hole is filled with `x`. */
  function Render(w: Wrap, x: Expr): Expr
    decreases |w|
  {
    if w == [] then x else Render(w[..|w| - 1], Plug(w[|w| - 1], x))
  }

  /** A wrap of one frame is that frame. */
  lemma RenderSingle(frame: Expr, x: Expr)
    ensures Render([frame], x) == Plug(frame, x)
  {
    assert [frame][..0] == [];
  }

  /**
   Put `frame` in the current hole; `frame`'s own hole becomes the place to
   fill. This is `ALIKEC_wrap_around` and every other `SETCAR` of the hole
   cell in src/attr.c.
   */
  function Nest(w: Wrap, frame: Expr): (w': Wrap)
    ensures |w'| == |w| + 1 && w'[..|w|] == w && w'[|w|] == frame
  {
    w + [frame]
  }

  /** The frame nested last is filled first. */
  lemma RenderNest(w: Wrap, frame: Expr, x: Expr)
    ensures Render(Nest(w, frame), x) == Render(w, Plug(frame, x))
  {
    assert Nest(w, frame)[..|w|] == w;
  }

  /** The outermost frame is filled last. */
  lemma {:induction false} RenderOutermost(frame: Expr, w: Wrap, x: Expr)
    ensures Render([frame] + w, x) == Plug(frame, Render(w, x))
    decreases |w|
  {
    if w != [] {
      var init := w[..|w| - 1];
      assert ([frame] + w)[..|w|] == [frame] + init;
      RenderOutermost(frame, init, Plug(w[|w| - 1], x));
    }
  }

  /** The call `fn(■)`. */
  function Accessor(fn: string): Expr
  {
    Call(fn, [Hole])
  }

  /** Filling `fn(■)` gives the call of `fn` on the filling. */
  lemma PlugAccessor(fn: string, x: Expr)
    ensures Plug(Accessor(fn), x) == Call(fn, [x])
  {
    PlugCall1(fn, Hole, x);
  }

  /** `ALIKEC_wrap_around(wrap, fn(NULL))`: nest `fn(■)`. */
  function WrapAround(w: Wrap, fn: string): Wrap
  {
    Nest(w, Accessor(fn))
  }

  /** Wrapping around puts the call of `fn` in the place of the object. */
  lemma RenderWrapAround(w: Wrap, fn: string, x: Expr)
    ensures Render(WrapAround(w, fn), x) == Render(w, Call(fn, [x]))
  {
    RenderNest(w, Accessor(fn), x);
    PlugAccessor(fn, x);
  }

  /** The attributes R has an accessor function for, written `tag(x)` rather than `attr(x, "tag")`. */
  predicate HasAccessor(tag: string)
  {
    tag in {"names", "class", "tsp", "row.names", "dimnames", "dim", "levels"}
  }

  /** `ALIKEC_attr_wrap(tag, NULL)`: the call that extracts attribute `tag`. */
  function AttrWrap(tag: string): Expr
  {
    if HasAccessor(tag) then Accessor(tag) else Call("attr", [Hole, Text(tag)])
  }

  /** The extraction is `tag(x)` for a tag with an accessor and `attr(x, "tag")` for any other. */
  lemma PlugAttrWrap(tag: string, x: Expr)
    ensures HasAccessor(tag) ==> Plug(AttrWrap(tag), x) == Call(tag, [x])
    ensures !HasAccessor(tag) ==> Plug(AttrWrap(tag), x) == Call("attr", [x, Text(tag)])
  {
    if HasAccessor(tag) {
      PlugAccessor(tag, x);
    } else {
      PlugCall2("attr", Hole, Text(tag), x);
    }
  }
}
